=== FILE: README.md ===
# Bio-drying simulation engine, modelled in Dafny

This project models `SimulationModel.run_simulation`, the hour-by-hour bio-drying
simulation of `modelvic.py`. `modelvic_backup.py` runs the same engine; it only
returns its series as numpy arrays. The model follows one run through these stages:

- **Parameter normalisation.** The retention time (HRT, in hours) is parsed.
- **Initial split.** Every substrate flow is split into moisture, ash,
  non-biodegradable, and fast- and slow-biodegradable solids.
- **Aeration schedule.** The airflow of each hour is either constant or on/off
  cycling.
- **Hourly steps.** The engine then runs HRT hourly steps. Each step covers:
  - moisture and aeration inhibition, and the temperature-corrected and clamped
    degradation rates;
  - implicit first-order decay of every pool;
  - stoichiometric CO2, O2, NH3 and water yields;
  - incoming and outgoing air and vapour, and the moisture balance, clamped at 0;
  - the solids, moisture and volatile percentages;
  - the empirical phase/temperature/moisture heat factor and the heat losses;
  - the asymmetric thermal-inertia filter on the temperature change;
  - relative humidity and the exhaust-gas volume at the updated temperature.
- **Output.** The run returns eight series, each of length HRT + 1, and the
  process volume.

Modules:

- `Common` (common.dfy): `Option`, the run's errors `SimError`, `Result`, and
  sums of real sequences with their lemmas.
- `Transcendental` (common.dfy): `exp`, real-exponent `pow` and the saturation
  vapour pressure correlation. They are given as a parameter record that carries
  only the facts the engine relies on: `exp` is positive with `exp(0) = 1`, and
  saturation pressures are positive.
- `Hrt` (hrt.dfy): HRT parsing.
- `Config` (config.dfy): the configuration records. It also holds the defaulting
  of compositions, specific heats, the starting temperature and the scalar
  parameters.
- `InitialSplit` (split.dfy): the per-substrate split, the validity conditions,
  and the process volume.
- `Aeration` (aeration.dfy): Python's float modulo and the airflow schedule.
- `Kinetics` (kinetics.dfy): the inhibition factors, rates, decay and
  stoichiometry.
- `Balance` (balance.dfy): psychrometrics, the moisture balance and fractions,
  the heat factor, heat loss, inertia and gas volume.
- `Hourly` (hourly.dfy): one hour, as `Step`.
- `Engine` (engine.dfy): the whole run, as `Simulate`.

Where the code stops with an exception, or leaves the finite reals, the model
returns a `Failure`:

- `ZeroCycleDuration`: alternating aeration with on + off = 0. The modulo at
  modelvic.py:196 divides by zero.
- `AmbientAtAbsoluteZero`: an ambient temperature of -273 °C. The pressure
  correction at modelvic.py:219 divides by zero.
- `ProcessAtAbsoluteZero(hour)`: a process temperature of -273 °C in an aerated
  hour. The outgoing vapour flow at modelvic.py:357 divides by zero. numpy would
  yield inf or NaN there, and the model stops instead.

The code divides by the total flow and by the initial solids without a guard
(modelvic.py:109, 185-187), so those two must be positive. The other
conditions keep the pools non-negative, which the decay and the solids
invariant rely on. `InitialSplit.ValidConfig` requires:

- at least one substrate;
- non-negative flows with a positive total;
- percentages in [0, 100];
- positive initial solids;
- a non-empty temperature list when one is given.

## Model

| member | source | states |
|---|---|---|
| Hrt.KeepDigits | modelvic.py:48-50 | The result holds only digits, is no longer than the input, and an all-digit string is kept unchanged. |
| Hrt.TruncateTowardZero | modelvic.py:55 | `int(float(x))` truncates toward zero: the result lies within 1 of x on x's side of zero. |
| Hrt.ParseHrt | modelvic.py:44-60 | The HRT is always at least 1. A missing value gives 1080. A number x ≥ 1 gives floor(x), and any smaller number gives 1080. An all-digit text gives the count it spells when that is ≥ 1, and 1080 when it spells 0. |
| Hrt.NoDigitsDefault | modelvic.py:48-52 | Any text without a single digit gives 1080. |
| Hrt.DecimalValue | modelvic.py:55 | Reading the decimal digits of n gives back n. |
| Hrt.HrtTextRoundTrip | modelvic.py:46-57 | The decimal text of any n ≥ 1 parses back to n. |
| Hrt.HrtNumberRoundTrip | modelvic.py:55-57 | A positive whole number parses to itself. |
| Hrt.KeepDigitsAppend | modelvic.py:50 | Digit filtering distributes over concatenation. |
| Hrt.NonDigitIgnored | modelvic.py:50 | Inserting a non-digit character anywhere in a text does not change the parsed HRT. |
| Hrt.DecimalPointDropped | modelvic.py:48-55 | "1.5" parses to 15, because the point is dropped before conversion. |
| Hrt.SignDropped | modelvic.py:48-55 | "-5" parses to 5, because the sign is dropped. |
| Hrt.TextFallbacks | modelvic.py:48-57 | "h" (no digits) and "00" (digits reading 0) both give 1080. |
| Hrt.NumberExamples | modelvic.py:46-57 | 2.9 gives 2; -3.7, 0.5 and a missing HRT give 1080. |
| Config.CompositionTable | modelvic.py:113-140 | Caller rows of at least 4 entries give their CHON values. Shorter or missing rows give all zeros. Without rows, the 8 built-in compositions are used, padded with 4.43/6.5/2.2/0.3. |
| Config.CpTable | modelvic.py:222-223 | Without specific heats every substrate gets 0.9. A short list keeps its values and is padded with 1.0. |
| Config.InitialTemperature | modelvic.py:149 | The starting temperature is the mean of the given temperatures, or 20 when none are given. |
| Config.ConfigOf | modelvic.py:41-100 | Every scalar parameter the caller gives is kept. An absent one takes its default: HBVS 16000, air flow 10, no alternation, on 1 h, off 0.5 h, ambient 20 °C, 60 % humidity, no added water. |
| Config.NoScalarKeysGivesDefaults | modelvic.py:41-100 | A dictionary without any scalar keys runs with exactly those defaults. |
| InitialSplit.NormalisedFlows | modelvic.py:108-110 | The normalise-and-rescale of the flows leaves every flow unchanged. |
| InitialSplit.SplitSubstrate | modelvic.py:143-177 | The split conserves mass: S + H = flow, ASH + VS = S, NBVS + BVS = VS, fBVS + sBVS = BVS, and S = flow·FS/100. Every part is non-negative for valid percentages. |
| InitialSplit.InitialPools | modelvic.py:153-183 | Per substrate, the pool solids plus the moisture equal the flow, the pool solids are flow·FS/100, and BVS = fBVS + sBVS. Valid percentages make every pool non-negative. |
| InitialSplit.SplitConservesFlow | modelvic.py:180-183 | S_tot + H_tot equals the total flow. |
| InitialSplit.ProcessVolumeIsTotalFlow | modelvic.py:517 | The process volume is the total flow divided by 1000. |
| InitialSplit.InitialTotalsInRange | modelvic.py:181-187 | Initial moisture is non-negative, and the volatile solids lie between 0 and the solids. |
| Aeration.FloatMod | modelvic.py:196 | Python's float modulo differs from t by floor(t/c) whole cycles of c. It lies in [0, c) for c > 0 and in (c, 0] for c < 0. |
| Aeration.BuildAirSchedule | modelvic.py:189-203 | The schedule has HRT entries. Without alternation every entry is the air flow. With alternation, entry t is the flow iff t mod (on+off) < on, else 0. A zero cycle is an error. |
| Aeration.Schedule | modelvic.py:189-203 | The reference schedule: HRT entries, each the flow, or 0 in an off hour of an alternating cycle. |
| Aeration.ScheduleUnique | modelvic.py:189-203 | Any sequence that meets the schedule's description is the reference schedule. |
| Aeration.AeratedHourHasFlow | modelvic.py:189-203 | An hour with positive airflow implies a positive configured air flow. |
| Aeration.FloatModPeriodic | modelvic.py:196 | Shifting an hour by whole cycles leaves its position in the cycle unchanged. |
| Aeration.ScheduleIsPeriodic | modelvic.py:193-200 | An alternating schedule repeats after any whole number of cycles. |
| Aeration.NoOffTimeIsConstant | modelvic.py:193-200 | With no off-time the fan runs every hour. |
| Aeration.NoOnTimeIsSilent | modelvic.py:193-200 | With no on-time and a positive cycle the fan never runs. |
| Aeration.OneOnOneOffExample | modelvic.py:193-200 | on = 1, off = 1 and HRT = 4 give [flow, 0, flow, 0]. |
| Kinetics.MoistureInhibition | modelvic.py:274 | F1 lies strictly between 0 and 1. |
| Kinetics.ParticleDensity | modelvic.py:277 | Gm lies between 1 (all volatile) and 2.5 (all ash). |
| Kinetics.AerationInhibition | modelvic.py:277-281 | F2 lies strictly between 0 and 1. |
| Kinetics.CorrectedRate | modelvic.py:302-306 | The corrected rate is the raw rate when that is positive, else 0. |
| Kinetics.EffectiveRate | modelvic.py:301-308 | The effective rate is never negative. It is 0 exactly when the corrected rate is 0, and otherwise strictly smaller than it. |
| Kinetics.Decay | modelvic.py:312-313 | The hour's loss is k/24 of what remains. A non-negative pool stays in [0, pool]. k = 0 keeps it, and k > 0 shrinks a positive pool. |
| Kinetics.StoichiometricYields | modelvic.py:323-330 | A non-positive formula mass gives all-zero yields. Otherwise TCO2 + TNH3 + TH2O - TO2 = 1. |
| Kinetics.ShortCompositionRowYieldsNothing | modelvic.py:113-121 | A substrate whose composition row is missing or shorter than 4 produces and consumes nothing. |
| Kinetics.DegradeSubstrate | modelvic.py:300-335 | fBVS and sBVS each decay implicitly at their own rate constant, corrected at the bracket and scaled by F1 and F2. Pools stay in range, BVS = fBVS + sBVS, and Sout = ASH + NBVS + BVS. The degraded mass is what the BVS lost. CO2, O2, NH3 and water are the stoichiometric yields of the composition times the degraded mass; they balance it when the formula mass is positive and are 0 otherwise. |
| Balance.Pressure | modelvic.py:219 | At altitude 0 the pressure is 101325 Pa. |
| Balance.IncomingAir | modelvic.py:293-298 | Without airflow no dry air or vapour comes in. Otherwise both obey the ideal-gas law. |
| Balance.OutgoingVapourPressure | modelvic.py:349-353 | PVO never exceeds saturation. When PV ≤ PVSO it is not below PV. It is non-negative when PV ≥ 0 and PVSO > 0. |
| Balance.RelativeHumidity | modelvic.py:483 | RH·PVSO = 100·PVO, so RH is at most 100 when PVO ≤ PVSO and at least 0 when PVO ≥ 0. |
| Balance.OutgoingVapour | modelvic.py:356-359 | No airflow means no vapour out. The only failure is an aerated hour at -273 °C. |
| Balance.MoistureBalance | modelvic.py:362-365 | The moisture is never negative. It closes the water balance exactly unless the balance is negative, in which case it is 0. |
| Balance.WetFractions | modelvic.py:367-373 | With positive total mass, the moisture and solids percentages sum to 100 and are proportional to the masses. Both lie in [0, 100] for non-negative masses. Both are 0 without mass. |
| Balance.VolatileFraction | modelvic.py:375-378 | FVS is the volatile share of the solids, lies in [0, 100], and is 0 without solids. |
| Balance.PhaseFactor | modelvic.py:393-408 | The phase factor lies in [0.3, 1.5]. It is 1.5 exactly in the second tenth of the run. |
| Balance.PhaseFactorDeclines | modelvic.py:393-408 | After the start-up tenth the phase factor never increases. |
| Balance.PhaseEnds | modelvic.py:397-408 | The first tenth of the run has factor 0.8 and the last 15 % has factor 0.3. |
| Balance.TemperatureFactor | modelvic.py:412-417 | The factor is 1 on [15, 65], in [0.2, 1) above 65, and in [0.5, 1) below 15. |
| Balance.MoistureFactor | modelvic.py:420-422 | The factor lies in [0.3, 1] and equals 1 exactly at 50 % moisture. |
| Balance.MoistureFactorSymmetric | modelvic.py:420-422 | The moisture factor is symmetric about the 50 % optimum. |
| Balance.HeatFactor | modelvic.py:393-422 | The combined heat factor lies in [0.018, 1.5], so it is positive. |
| Balance.LossCoefficient | modelvic.py:428-435 | The coefficient is 9 exactly without airflow, and 9 + 0.06·Qair with it. |
| Balance.HeatLoss | modelvic.py:438 | The heat loss has the sign of Tprocess - Tair and is at least 9 per degree of it. |
| Balance.InertiaFilter | modelvic.py:461-466 | The filter keeps the sign of ΔT, and the applied change lies between 0.065·abs(ΔT) and 0.15·abs(ΔT). |
| Balance.InertiaFilterMonotone | modelvic.py:461-466 | The filter preserves the order of raw changes. |
| Balance.CoolingDampedMore | modelvic.py:461-466 | A drop is damped more than a rise of the same size. |
| Balance.NextTemperature | modelvic.py:456-472 | With positive heat capacity the temperature rises iff the available heat is positive, and stays put iff it is 0. Without heat capacity the temperature is unchanged. |
| Balance.TemperatureChangeBound | modelvic.py:456-469 | abs(change)·Cp ≤ 0.15·abs(H_available). |
| Balance.GasVolume | modelvic.py:486-492 | The volume is 0 when P ≤ PVO. Otherwise V·(P - PVO) = R·(T + 273)·(net moles). |
| Hourly.AdvanceFacts | modelvic.py:310-316 | Decay keeps every pool well formed and leaves ASH and NBVS unchanged. Solids never rise and never fall below ASH + NBVS. |
| Hourly.DegradedIsSolidsLost | modelvic.py:314-319 | The solids after the hour plus the degraded mass equal the solids before it. |
| Hourly.Degrade | modelvic.py:272-319 | The decay uses F1 and F2 from the start-of-hour percentages and rates corrected at the start-of-hour temperature (DegradeOrigin). The hour's CO2, O2, NH3 and produced water are the column sums over the substrates, and the ash is the sum of the pools' ash. The pools stay well formed, ASH and NBVS are fixed, and the solids fall by exactly the degraded mass. The ash lies in [0, solids]. |
| Hourly.MixtureProductsBalance | modelvic.py:321-340 | When every formula mass is positive, the hour's CO2 + NH3 + water - O2 equals the degraded mass. |
| Hourly.Air | modelvic.py:286-353 | PV is the ambient saturation pressure times RH/100. PVSO is the saturation pressure at the given process temperature. PVO is PV pulled toward PVSO by F1 and capped at PVSO. The incoming dry air and vapour are the ideal-gas masses of the hour's airflow at the ambient temperature and P = 101325 (AirOrigin). The vapour pressures are non-negative for a non-negative ambient RH, and no air comes in without airflow. |
| Hourly.Balances | modelvic.py:360-475 | Moisture closes or is clamped at 0, and the percentages stay in range. Heat generation uses the start-of-hour temperature and the new moisture percentage. Evaporation and heat loss use the start-of-hour temperature. The new temperature is the filtered change from the start-of-hour temperature, and moves in the direction of the available heat. FS and FH are the shares of the new wet mass, FVS the volatile share of the new solids, and the heat capacity is that of the decayed solids, the new moisture and the exhaust gas (BalanceOrigin). |
| Hourly.ExhaustVolume | modelvic.py:485-491 | At sea-level pressure, the volume is 0 when PVO reaches the pressure. Otherwise V·(P - PVO) = R·(T_new + 273)·(net moles). |
| Hourly.Complete | modelvic.py:343-507 | The assembled hour reports the new state built from the balances and the decayed pools, and the flows of the biology and the air side (Assembled). Its exhaust mass is dry air + CO2 + NH3 - O2, its RH is PVO/PVSO, and its gas volume obeys the ideal-gas law at the updated temperature. |
| Hourly.Step | modelvic.py:265-515 | An hour fails exactly when aerated at -273 °C. Otherwise it keeps the state invariant and satisfies every range, balance and no-airflow fact of HourFacts. StartOfHour also holds: decay, PVSO, PVO, heat generation, evaporation, heat loss and the temperature update all use the start-of-hour temperature and percentages. HourFlows fixes the rest: the gas and water flows are the column sums, the air and vapour in are the ideal-gas masses, the vapour out is the outgoing-vapour formula, the new FS, FH and FVS, the heat capacity and the RH are those of the new masses. |
| Hourly.Finish | modelvic.py:360-507 | Once biology and air are fixed, the balances and the assembled hour satisfy HourFacts, StartOfHour and HourFlows. |
| Hourly.HourDetermined | modelvic.py:265-515 | HourFacts, StartOfHour and HourFlows together leave no freedom: two hours from the same state, airflow and parameters that both meet them are equal. |
| Hourly.HourHeatBounds | modelvic.py:391-426 | In a completed hour the degraded mass is non-negative. With HBVS ≥ 0 the heat released lies between 0.018·HBVS·degraded and 1.5·HBVS·degraded. |
| Hourly.HourLossSign | modelvic.py:428-438 | In a completed hour heat is lost iff the process starts warmer than the ambient air, and gained iff it starts colder, at ≥ 9 kJ/h per degree. |
| Hourly.NoAirflowHour | modelvic.py:293-435 | An unaerated hour always completes with no air or vapour exchanged and loss coefficient 9. Its exhaust mass is still CO2 + NH3 - O2. |
| Engine.PlantOf | modelvic.py:112-223 | The fixed parameters hold one composition and at least one specific heat per substrate. |
| Engine.InitialState | modelvic.py:180-187 | The first state has well-formed pools that hold exactly the initial solids, and non-negative moisture. FS, FH and FVS lie in [0, 100], and FS + FH = 100. |
| Engine.StepwiseNonIncreasing | modelvic.py:507 | A series that never rises from one hour to the next never rises over any span. |
| Engine.AppendRow | modelvic.py:500-507 | Appending the next hour's row keeps the row invariant. |
| Engine.SeriesFromRows | modelvic.py:500-531 | Reading the rows into series keeps the invariant: solids never rise over any span. |
| Engine.RunHours | modelvic.py:265-515 | The loop returns exactly the reference run: hour 0's row followed by the rows of `Rows`, so each row is the one Step produces from the state the previous hour left. It fails only at an aerated hour. Otherwise it returns HRT + 1 rows that keep the invariant. |
| Engine.Rows | modelvic.py:265-515 | The reference definition of the hours from t on: Step chained from hour t, each hour starting from the state the previous one left. It yields HRT - t rows, or fails at an aerated hour t ≤ h < HRT at -273 °C. |
| Engine.Simulate | modelvic.py:11-531 | The errors arise in the code's order. Once the setup checks pass, the result is the reference run `Run` read into series, with the process volume Σflow/1000. A run without airflow cannot fail after the setup checks. On success all eight series have HRT + 1 entries and Times[i] = i. Row 0 holds the starting mixture and moisture percentage with no exhaust and RH = 60. Solids never rise and never fall below ASH + NBVS. Moisture is ≥ 0 and its percentage lies in [0, 100]. RH ≤ 100, and RH ≥ 0 for a non-negative ambient RH. |
| Engine.RunSeries | modelvic.py:265-531 | With a built schedule, the series are the reference run's rows. A failure names an aerated hour below HRT, and a success has the shape Simulate promises. |

## Left out

- The plotting method and the demonstration blocks after the engine are not
  modelled. They only display and print.
- fix_graph_display.py and fix_sensitivity.py are file-patching and GUI
  utilities, with no simulation logic.
- interface final.py is not modelled. It is the GUI that builds the parameter
  dictionary and shows the results.
- `exp`, real-exponent `**` and the saturation-pressure correlation are
  parameters (`Transcendental.Functions`), not computed. The model relies only on
  positivity and `exp(0) = 1`. The rate bracket 1.066^(T-20) - 1.21^(T-60) is an
  arbitrary real.
- The correlation's singularity at T = -234 °C is left out. There the code gets
  an infinite exponent and a zero or NaN vapour pressure.
- IEEE floating point is not modelled: values are exact reals, with no rounding,
  overflow, inf or NaN.
- The energy terms the code computes and never uses are not modelled: the
  initial enthalpies, the added-water enthalpy, and the oxygen percentage. So the
  added-water temperature `water_temp` does not appear.
- `AirCaract`, `WateraddCaract`, `points_per_hour` and the substrate names do not
  influence the results and are not modelled.
- Python coercions of arbitrary objects are left out: `float()` and `bool()` of
  non-numeric values, the truthiness of strings such as "False", and the
  fallback values those `try` blocks use. A scalar key is either absent, which
  `Config.ConfigOf` maps to its default, or a plain real or boolean.
- Unicode digits are not modelled: HRT text is parsed over ASCII digits only.
- The OverflowError raised by `int(float(...))` on huge digit strings is not
  modelled.
- The per-substrate arrays are one record per substrate, so arrays of mismatched
  lengths cannot arise.
- A missing `NS` with a separate substrate count, and a caller `CCS` matrix given
  as arrays of a different shape, are not modelled.
- `Hourly.Step`: a process temperature of -273 °C in an aerated hour ends the run
  with `ProcessAtAbsoluteZero`. The code instead carries inf or NaN through the
  remaining hours.
- `Engine.Simulate`: negative individual flows and percentages outside
  [0, 100] are accepted by the code (modelvic.py:107-110 only needs a positive
  total) but excluded here by `InitialSplit.ValidConfig`. With them a pool can
  start negative, and the implicit decay pool - out = k/24·out then gives
  out > pool, so the solids series could rise.
- `InitialSplit.ValidConfig` excludes zero total flow and zero initial solids,
  because the code divides by both without a guard.

=== FILE: aeration.dfy ===
/** The hourly airflow schedule (modelvic.py lines 189-203): constant, or on/off
    cycling decided by the position of the hour within a cycle of on + off hours. */
module Aeration {
  import opened Common

  /** The fractional part of y, in [0, 1). */
  function Fraction(y: real): (f: real)
    ensures 0.0 <= f < 1.0
  {
    y - y.Floor as real
  }

  /** Python's float modulo t % c: t - floor(t / c) * c, written as c times the
      fractional part of t / c. It differs from t by a whole number of c, and
      its sign follows c. */
  function FloatMod(t: int, c: real): (r: real)
    requires c != 0.0
    ensures t as real - r == (t as real / c).Floor as real * c
    ensures c > 0.0 ==> 0.0 <= r < c
    ensures c < 0.0 ==> c < r <= 0.0
  {
    var y := t as real / c;
    var frac := Fraction(y);
    ScaledFraction(frac, c);
    WholeCycles(t as real, c, y);
    c * frac
  }

  /** Scaling the fractional part of t / c back by c leaves t less whole cycles. */
  lemma WholeCycles(t: real, c: real, y: real)
    requires c != 0.0 && y == t / c
    ensures t - c * Fraction(y) == y.Floor as real * c
  {
    var fl := y.Floor as real;
    assert c * y == t;
    assert c * (y - fl) == c * y - c * fl;
  }

  lemma ScaledFraction(frac: real, c: real)
    requires 0.0 <= frac < 1.0
    ensures c > 0.0 ==> 0.0 <= c * frac < c
    ensures c < 0.0 ==> c < c * frac <= 0.0
  {
    if c > 0.0 {
      assert (1.0 - frac) * c > 0.0;
    } else if c < 0.0 {
      assert (1.0 - frac) * (-c) > 0.0;
      assert frac * (-c) >= 0.0;
    }
  }

  /** Whether the fan runs during hour t of an alternating schedule. */
  predicate AirOn(t: int, onTime: real, offTime: real)
    requires onTime + offTime != 0.0
  {
    FloatMod(t, onTime + offTime) < onTime
  }

  /** q is the schedule for hrt hours: the flow every hour without alternation,
      and with it the flow in the hours the fan is on and 0 otherwise. */
  ghost predicate IsAirSchedule(q: seq<real>, alternating: bool, flow: real, onTime: real, offTime: real, hrt: nat)
  {
    && |q| == hrt
    && (!alternating ==> forall t :: 0 <= t < hrt ==> q[t] == flow)
    && (alternating && onTime + offTime != 0.0 ==>
         forall t :: 0 <= t < hrt ==> q[t] == (if AirOn(t, onTime, offTime) then flow else 0.0))
  }

  /** The airflow of hour t: the flow without alternation, and with it the flow
      while the fan is on and 0 otherwise. */
  function AirflowAt(t: nat, alternating: bool, flow: real, onTime: real, offTime: real): real
    requires alternating ==> onTime + offTime != 0.0
  {
    if alternating && !AirOn(t, onTime, offTime) then 0.0 else flow
  }

  /** The schedule for hrt hours, hour by hour. */
  function Schedule(alternating: bool, flow: real, onTime: real, offTime: real, hrt: nat): (q: seq<real>)
    requires alternating ==> onTime + offTime != 0.0
    ensures IsAirSchedule(q, alternating, flow, onTime, offTime, hrt)
  {
    seq(hrt, t requires 0 <= t < hrt => AirflowAt(t, alternating, flow, onTime, offTime))
  }

  /** A schedule is fixed by its parameters: every q IsAirSchedule accepts is Schedule's. */
  lemma ScheduleUnique(q: seq<real>, alternating: bool, flow: real, onTime: real, offTime: real, hrt: nat)
    requires alternating ==> onTime + offTime != 0.0
    requires IsAirSchedule(q, alternating, flow, onTime, offTime, hrt)
    ensures q == Schedule(alternating, flow, onTime, offTime, hrt)
  {
    var s := Schedule(alternating, flow, onTime, offTime, hrt);
    forall t | 0 <= t < hrt
      ensures q[t] == s[t]
    {
    }
  }

  /** The fan blows only with a positive flow: an hour with airflow has flow > 0. */
  lemma AeratedHourHasFlow(q: seq<real>, alternating: bool, flow: real, onTime: real, offTime: real, hrt: nat, t: nat)
    requires alternating ==> onTime + offTime != 0.0
    requires IsAirSchedule(q, alternating, flow, onTime, offTime, hrt)
    requires t < hrt && q[t] > 0.0
    ensures flow > 0.0
  {
  }

  /** Builds the airflow of each hour. An alternating schedule whose cycle lasts
      0 hours fails at its first hour, as the modulo by zero does. */
  method BuildAirSchedule(alternating: bool, flow: real, onTime: real, offTime: real, hrt: nat)
    returns (r: Result<seq<real>>)
    ensures r.Failure? <==> alternating && onTime + offTime == 0.0 && hrt > 0
    ensures r.Failure? ==> r.error == ZeroCycleDuration
    ensures r.Success? ==> IsAirSchedule(r.value, alternating, flow, onTime, offTime, hrt)
  {
    if !alternating {
      var q: seq<real> := [];
      while |q| < hrt
        invariant |q| <= hrt
        invariant forall t :: 0 <= t < |q| ==> q[t] == flow
      {
        q := q + [flow];
      }
      return Success(q);
    }
    var cycle := onTime + offTime;
    if cycle == 0.0 {
      if hrt > 0 {
        return Failure(ZeroCycleDuration);
      }
      return Success([]);
    }
    var q: seq<real> := [];
    while |q| < hrt
      invariant |q| <= hrt
      invariant forall t :: 0 <= t < |q| ==> q[t] == (if AirOn(t, onTime, offTime) then flow else 0.0)
    {
      var position := FloatMod(|q|, cycle);
      if position < onTime {
        q := q + [flow];
      } else {
        q := q + [0.0];
      }
    }
    return Success(q);
  }

  /** Shifting an hour by a whole number of cycles leaves its place in the cycle unchanged. */
  lemma FloatModPeriodic(t: int, c: real, n: nat, k: int)
    requires c > 0.0
    requires k as real == n as real * c
    ensures FloatMod(t + k, c) == FloatMod(t, c)
  {
    QuotientShift(t as real, k as real, c, n as real);
    FloorShift(t as real / c, n);
  }

  lemma QuotientShift(t: real, k: real, c: real, n: real)
    requires c != 0.0 && k == n * c
    ensures (t + k) / c == t / c + n
  {
  }

  lemma FloorShift(x: real, n: int)
    ensures (x + n as real).Floor == x.Floor + n
  {
  }

  /** With a positive cycle, an alternating schedule repeats after any whole
      number of cycles. */
  lemma ScheduleIsPeriodic(q: seq<real>, flow: real, onTime: real, offTime: real, hrt: nat, n: nat, k: nat, t: nat)
    requires onTime + offTime > 0.0
    requires IsAirSchedule(q, true, flow, onTime, offTime, hrt)
    requires k as real == n as real * (onTime + offTime)
    requires t + k < hrt
    ensures q[t + k] == q[t]
  {
    FloatModPeriodic(t, onTime + offTime, n, k);
  }

  /** With no off-time the fan never stops. */
  lemma NoOffTimeIsConstant(q: seq<real>, flow: real, onTime: real, hrt: nat)
    requires onTime > 0.0
    requires IsAirSchedule(q, true, flow, onTime, 0.0, hrt)
    ensures forall t :: 0 <= t < hrt ==> q[t] == flow
  {
  }

  /** With a positive cycle and no on-time the fan never runs. */
  lemma NoOnTimeIsSilent(q: seq<real>, flow: real, onTime: real, offTime: real, hrt: nat)
    requires onTime <= 0.0 && onTime + offTime > 0.0
    requires IsAirSchedule(q, true, flow, onTime, offTime, hrt)
    ensures forall t :: 0 <= t < hrt ==> q[t] == 0.0
  {
  }

  /** One hour on, one hour off, over four hours: flow, 0, flow, 0. */
  lemma OneOnOneOffExample(q: seq<real>, flow: real)
    requires IsAirSchedule(q, true, flow, 1.0, 1.0, 4)
    ensures q == [flow, 0.0, flow, 0.0]
  {
    assert FloatMod(0, 2.0) == 0.0;
    assert FloatMod(1, 2.0) == 1.0;
    FloatModPeriodic(0, 2.0, 1, 2);
    FloatModPeriodic(1, 2.0, 1, 2);
  }
}

=== FILE: balance.dfy ===
/** The psychrometric, moisture and energy balance of one hour (modelvic.py
    lines 215-227, 284-298, 343-378, 391-475, 483-492): incoming and outgoing air
    and vapour, the clamped moisture balance, the solids and moisture fractions,
    the empirical heat factor, heat losses, the thermal-inertia filter on the
    temperature change, relative humidity and the exhaust-gas volume. */
module Balance {
  import opened Common
  import opened Transcendental

  const SeaLevelPressure: real := 101325.0
  /** Altitude of the plant (m). */
  const Altitude: real := 0.0
  const Gravity: real := 9.81
  const GasConstant: real := 8.314
  /** Molar masses (kg/mol). */
  const AirMolarMass: real := 28.96 / 1000.0
  const WaterMolarMass: real := 18.015 / 1000.0
  const CO2MolarMass: real := 44.0 / 1000.0
  const NH3MolarMass: real := 17.0 / 1000.0
  const O2MolarMass: real := 32.0 / 1000.0
  /** Specific heats (kJ/kg/degC). */
  const WaterHeatCapacity: real := 4.196
  const AirHeatCapacity: real := 1.005

  /** Absolute temperature (K) of a temperature in degrees C. */
  function Kelvin(t: real): real
  {
    t + 273.0
  }

  /** Barometric pressure at the plant's altitude: sea-level pressure, since the
      altitude is 0. */
  function Pressure(fns: Functions, ambientTemp: real): (p: real)
    requires Valid(fns)
    requires Kelvin(ambientTemp) != 0.0
    ensures p == SeaLevelPressure
  {
    SeaLevelPressure * fns.exp(-AirMolarMass * Gravity * Altitude / (GasConstant * Kelvin(ambientTemp)))
  }

  /** Dry-air and water-vapour mass flows (kg/h) carried by the incoming air. */
  datatype AirIn = AirIn(dryAir: real, vapour: real)

  /** The ideal-gas masses of qair m^3/h of air at tair and partial vapour
      pressure pv; no flow carries nothing. */
  function IncomingAir(qair: real, tair: real, p: real, pv: real): (a: AirIn)
    requires Kelvin(tair) != 0.0
    ensures qair <= 0.0 ==> a == AirIn(0.0, 0.0)
    ensures qair > 0.0 ==>
      && a.dryAir * (GasConstant * Kelvin(tair)) == AirMolarMass * (p - pv) * qair
      && a.vapour * (GasConstant * Kelvin(tair)) == WaterMolarMass * pv * qair
  {
    if qair > 0.0 then
      var rt := GasConstant * Kelvin(tair);
      AirIn((AirMolarMass * (p - pv) * qair) / rt, (WaterMolarMass * pv * qair) / rt)
    else
      AirIn(0.0, 0.0)
  }

  /** PVO: the vapour pressure of the outgoing air, the incoming vapour pressure
      pulled toward saturation by the weight f1 and capped at saturation. */
  function OutgoingVapourPressure(pv: real, pvso: real, f1: real): (pvo: real)
    requires 0.0 < f1 < 1.0
    ensures pvo <= pvso
    ensures pv <= pvso ==> pv <= pvo
    ensures pv >= 0.0 && pvso > 0.0 ==> pvo >= 0.0
  {
    var gap := pvso - pv;
    var shift := gap * f1;
    ShareOfGap(gap, f1);
    Min(pv + shift, pvso)
  }

  /** A weight in (0, 1) moves a point part of the way across a gap, never past it. */
  lemma ShareOfGap(gap: real, f: real)
    requires 0.0 < f < 1.0
    ensures gap >= 0.0 ==> 0.0 <= gap * f <= gap
    ensures gap <= 0.0 ==> gap <= gap * f <= 0.0
  {
    var rest := 1.0 - f;
    assert gap * f + gap * rest == gap;
    if gap >= 0.0 {
      NonNegativeProduct(gap, f);
      NonNegativeProduct(gap, rest);
    } else {
      NonNegativeProduct(-gap, f);
      NonNegativeProduct(-gap, rest);
    }
  }

  lemma NonNegativeProduct(a: real, b: real)
    requires a >= 0.0 && b >= 0.0
    ensures a * b >= 0.0
  {
  }

  /** The relative humidity (%) of the outgoing air. */
  function RelativeHumidity(pvo: real, pvso: real): (rh: real)
    requires pvso > 0.0
    ensures rh * pvso == pvo * 100.0
    ensures pvo <= pvso ==> rh <= 100.0
    ensures pvo >= 0.0 ==> rh >= 0.0
  {
    (pvo / pvso) * 100.0
  }

  /** Vapour mass flow (kg/h) leaving with qair m^3/h of air at the process
      temperature; None when that temperature is absolute zero, where the
      ideal-gas division has no finite value. */
  function OutgoingVapour(qair: real, tprocess: real, pvo: real): (v: Option<real>)
    ensures qair <= 0.0 ==> v == Some(0.0)
    ensures v.None? <==> qair > 0.0 && Kelvin(tprocess) == 0.0
    ensures qair > 0.0 && v.Some? ==>
      v.value * (GasConstant * Kelvin(tprocess)) == WaterMolarMass * pvo * qair
  {
    if qair > 0.0 then
      if Kelvin(tprocess) == 0.0 then None
      else Some((WaterMolarMass * pvo * qair) / (GasConstant * Kelvin(tprocess)))
    else
      Some(0.0)
  }

  /** The moisture left after the hour: the previous moisture plus water from
      degradation and addition, plus vapour in, minus vapour out; the balance
      closes exactly unless it would go negative, when it is clamped to 0. */
  function MoistureBalance(previous: real, produced: real, added: real, vapourIn: real, vapourOut: real)
    : (m: real)
    ensures m >= 0.0
    ensures previous + produced + added + vapourIn - vapourOut >= 0.0 ==>
      m - previous == produced + added + vapourIn - vapourOut
    ensures previous + produced + added + vapourIn - vapourOut < 0.0 ==> m == 0.0
  {
    Max(0.0, previous + produced + added + vapourIn - vapourOut)
  }

  /** Moisture and solids as percentages of the wet mass. */
  datatype Fractions = Fractions(moisture: real, solids: real)

  function WetFractions(solids: real, moisture: real): (f: Fractions)
    ensures solids + moisture > 0.0 ==>
      && f.moisture + f.solids == 100.0
      && f.moisture * (solids + moisture) == moisture * 100.0
    ensures solids >= 0.0 && moisture >= 0.0 ==>
      0.0 <= f.moisture <= 100.0 && 0.0 <= f.solids <= 100.0
    ensures solids + moisture <= 0.0 ==> f == Fractions(0.0, 0.0)
  {
    var total := solids + moisture;
    if total > 0.0 then
      var f := Fractions((moisture / total) * 100.0, (solids / total) * 100.0);
      ShareOfTotal(moisture, solids, total);
      f
    else
      Fractions(0.0, 0.0)
  }

  lemma ShareOfTotal(m: real, s: real, total: real)
    requires total == m + s && total > 0.0
    ensures (m / total) * 100.0 + (s / total) * 100.0 == 100.0
    ensures m >= 0.0 && s >= 0.0 ==> 0.0 <= (m / total) * 100.0 <= 100.0 && 0.0 <= (s / total) * 100.0 <= 100.0
  {
    assert (m / total) + (s / total) == 1.0;
    if m >= 0.0 && s >= 0.0 {
      assert m / total <= 1.0;
      assert s / total <= 1.0;
    }
  }

  /** The volatile share (%) of the solids, 0 when there are no solids. */
  function VolatileFraction(solids: real, ash: real): (fvs: real)
    ensures solids > 0.0 ==> fvs * solids == (solids - ash) * 100.0
    ensures solids > 0.0 && 0.0 <= ash <= solids ==> 0.0 <= fvs <= 100.0
    ensures solids <= 0.0 ==> fvs == 0.0
  {
    if solids > 0.0 then
      var v := ((solids - ash) / solids) * 100.0;
      assert 0.0 <= ash <= solids ==> (solids - ash) / solids <= 1.0;
      v
    else
      0.0
  }

  /** The phase multiplier of heat generation by elapsed share of the run:
      start-up, thermophilic rise, plateau, slow-down, maturation, residual. */
  function PhaseFactor(t: nat, hrt: nat): (h: real)
    requires hrt >= 1
    ensures 0.3 <= h <= 1.5
    ensures h == 1.5 <==> 0.1 <= t as real / hrt as real < 0.2
  {
    var progress := t as real / hrt as real;
    if progress < 0.1 then 0.8
    else if progress < 0.2 then 1.5
    else if progress < 0.35 then 1.2
    else if progress < 0.65 then 0.7
    else if progress < 0.85 then 0.5
    else 0.3
  }

  /** After the start-up phase, heat generation never picks up again. */
  lemma PhaseFactorDeclines(t1: nat, t2: nat, hrt: nat)
    requires hrt >= 1 && t1 <= t2
    requires t1 as real / hrt as real >= 0.1
    ensures PhaseFactor(t2, hrt) <= PhaseFactor(t1, hrt)
  {
    assert t1 as real / hrt as real <= t2 as real / hrt as real by {
      DivMonotone(t1 as real, t2 as real, hrt as real);
    }
  }

  lemma DivMonotone(a: real, b: real, c: real)
    requires a <= b && c > 0.0
    ensures a / c <= b / c
  {
    assert b / c - a / c == (b - a) / c;
  }

  /** The start-up phase is the first tenth of the run and the residual phase
      its last 15 %. */
  lemma PhaseEnds(t: nat, hrt: nat)
    requires hrt >= 1
    ensures t as real < 0.1 * hrt as real ==> PhaseFactor(t, hrt) == 0.8
    ensures t as real >= 0.85 * hrt as real ==> PhaseFactor(t, hrt) == 0.3
  {
    var h := hrt as real;
    if t as real < 0.1 * h {
      QuotientBelow(t as real, 0.1, h);
    }
    if t as real >= 0.85 * h {
      DivMonotone(0.85 * h, t as real, h);
      ScaledQuotient(0.85, h);
    }
  }

  lemma ScaledQuotient(a: real, c: real)
    requires c > 0.0
    ensures (a * c) / c == a
  {
  }

  lemma QuotientBelow(a: real, b: real, c: real)
    requires c > 0.0 && a < b * c
    ensures a / c < b
  {
    var q := a / c;
    assert q * c == a;
    if q >= b {
      assert q * c >= b * c;
    }
  }

  /** Temperature modulation: full activity between 15 and 65 degC, reduced
      (to at least 0.2) above 65 and (to at least 0.5) below 15. */
  function TemperatureFactor(t: real): (f: real)
    ensures 15.0 <= t <= 65.0 ==> f == 1.0
    ensures t > 65.0 ==> 0.2 <= f < 1.0
    ensures t < 15.0 ==> 0.5 <= f < 1.0
    ensures t >= 81.0 ==> f == 0.2
    ensures t <= 7.5 ==> f == 0.5
  {
    if t > 65.0 then Max(0.2, 1.0 - (t - 65.0) / 20.0)
    else if t < 15.0 then Max(0.5, t / 15.0)
    else 1.0
  }

  /** Moisture modulation: 1 at 50 % moisture, falling linearly on either side
      to a floor of 0.3. */
  function MoistureFactor(fh: real): (f: real)
    ensures 0.3 <= f <= 1.0
    ensures f == 1.0 <==> fh == 50.0
  {
    Max(0.3, 1.0 - Abs(fh - 50.0) / 70.0)
  }

  /** The moisture modulation is symmetric about the 50 % optimum. */
  lemma MoistureFactorSymmetric(d: real)
    ensures MoistureFactor(50.0 + d) == MoistureFactor(50.0 - d)
  {
  }

  /** The composite heat factor, at the hour's start temperature and the
      hour's new moisture percentage. */
  function HeatFactor(t: nat, hrt: nat, tprocess: real, fh: real): (h: real)
    requires hrt >= 1
    ensures 0.0 < h <= 1.5
    ensures 0.3 * 0.2 * 0.3 <= h
  {
    var p := PhaseFactor(t, hrt);
    var tf := TemperatureFactor(tprocess);
    var mf := MoistureFactor(fh);
    ProductBounds(p, tf, mf);
    p * tf * mf
  }

  lemma ProductBounds(p: real, tf: real, mf: real)
    requires 0.3 <= p <= 1.5 && 0.2 <= tf <= 1.0 && 0.3 <= mf <= 1.0
    ensures 0.3 * 0.2 * 0.3 <= p * tf * mf <= 1.5
  {
    ProductRange(p, 0.3, 1.5, tf, 0.2, 1.0);
    ProductRange(p * tf, 0.3 * 0.2, 1.5 * 1.0, mf, 0.3, 1.0);
  }

  /** Bounds of non-negative factors bound their product. */
  lemma ProductRange(x: real, xlo: real, xhi: real, y: real, ylo: real, yhi: real)
    requires 0.0 <= xlo <= x <= xhi && 0.0 <= ylo <= y <= yhi
    ensures xlo * ylo <= x * y <= xhi * yhi
  {
    NonNegativeProduct(x - xlo, ylo);
    NonNegativeProduct(x, y - ylo);
    NonNegativeProduct(xhi - x, y);
    NonNegativeProduct(xhi, yhi - y);
  }

  /** Heat-loss coefficient (kJ/h/degC): 9 for the insulated vessel, plus 0.06
      per m^3/h of aeration while the fan runs. */
  function LossCoefficient(qair: real): (u: real)
    ensures u >= 9.0
    ensures u == 9.0 <==> qair <= 0.0
    ensures qair > 0.0 ==> u == 9.0 + 0.06 * qair
  {
    var insulationFactor := 0.6;
    var u := 15.0 * insulationFactor;
    if qair > 0.0 then u + qair * 0.06 else u
  }

  /** Heat lost to the incoming air (kJ/h): same sign as the temperature
      difference, and at least 9 kJ/h per degree of it. */
  function HeatLoss(qair: real, tprocess: real, tair: real): (loss: real)
    ensures loss > 0.0 <==> tprocess > tair
    ensures loss == 0.0 <==> tprocess == tair
    ensures Abs(loss) >= 9.0 * Abs(tprocess - tair)
    ensures qair <= 0.0 ==> loss == 9.0 * (tprocess - tair)
  {
    var u := LossCoefficient(qair);
    LossBounds(u, tprocess - tair);
    u * (tprocess - tair)
  }

  lemma LossBounds(u: real, dt: real)
    requires u >= 9.0
    ensures u * dt > 0.0 <==> dt > 0.0
    ensures u * dt == 0.0 <==> dt == 0.0
    ensures Abs(u * dt) >= 9.0 * Abs(dt)
  {
    if dt > 0.0 {
      assert u * dt >= 9.0 * dt;
    } else if dt < 0.0 {
      assert u * (-dt) >= 9.0 * (-dt);
    }
  }

  /** Latent heat of vaporisation of water (kJ/kg) at t degC. */
  function LatentHeat(t: real): real
  {
    (1033.7 - 0.5683 * t) * 2.326
  }

  /** The thermal-inertia filter: a heating change is damped to 15 % and a
      cooling change to 6.5 % of its raw value. */
  function InertiaFilter(delta: real): (applied: real)
    ensures applied > 0.0 <==> delta > 0.0
    ensures applied < 0.0 <==> delta < 0.0
    ensures 0.065 * Abs(delta) <= Abs(applied) <= 0.15 * Abs(delta)
  {
    var inertiaFactor := 0.85;
    if delta > 0.0 then delta * (1.0 - inertiaFactor)
    else delta * (1.0 - inertiaFactor * 1.1)
  }

  /** The filter preserves the order of raw changes. */
  lemma InertiaFilterMonotone(d1: real, d2: real)
    requires d1 <= d2
    ensures InertiaFilter(d1) <= InertiaFilter(d2)
  {
  }

  /** Cooling is damped more than heating by the same amount. */
  lemma CoolingDampedMore(d: real)
    requires d > 0.0
    ensures Abs(InertiaFilter(-d)) < Abs(InertiaFilter(d))
  {
  }

  /** The temperature after the hour: the filtered change H/Cp, or no change
      when the heat capacity is not positive. */
  function NextTemperature(t: real, available: real, heatCapacity: real): (t': real)
    ensures heatCapacity <= 0.0 ==> t' == t
    ensures heatCapacity > 0.0 ==>
      && (t' > t <==> available > 0.0)
      && (t' == t <==> available == 0.0)
  {
    if heatCapacity > 0.0 then
      var delta := available / heatCapacity;
      QuotientFacts(available, heatCapacity, delta);
      t + InertiaFilter(delta)
    else
      t
  }

  /** The inertia bounds the temperature change by 15 % of the instantaneous
      change H / Cp. */
  lemma TemperatureChangeBound(t: real, available: real, heatCapacity: real)
    requires heatCapacity > 0.0
    ensures Abs(NextTemperature(t, available, heatCapacity) - t) * heatCapacity <= 0.15 * Abs(available)
  {
    var delta := available / heatCapacity;
    var applied := InertiaFilter(delta);
    QuotientFacts(available, heatCapacity, delta);
    ScaledBound(Abs(applied), Abs(delta), heatCapacity, Abs(available));
    assert NextTemperature(t, available, heatCapacity) - t == applied;
  }

  lemma QuotientFacts(h: real, c: real, q: real)
    requires c > 0.0 && q == h / c
    ensures q > 0.0 <==> h > 0.0
    ensures q == 0.0 <==> h == 0.0
    ensures q < 0.0 <==> h < 0.0
    ensures Abs(q) * c == Abs(h)
  {
    assert q * c == h;
  }

  lemma ScaledBound(a: real, q: real, c: real, h: real)
    requires c > 0.0 && a <= 0.15 * q && q * c == h
    ensures a * c <= 0.15 * h
  {
    assert a * c <= (0.15 * q) * c;
  }

  /** Net moles of exhaust gas per hour: dry air, CO2 and NH3 out, O2 consumed. */
  function NetMoles(dryAir: real, co2: real, nh3: real, o2: real): real
  {
    dryAir / AirMolarMass + co2 / CO2MolarMass + nh3 / NH3MolarMass - o2 / O2MolarMass
  }

  /** Exhaust-gas volume (m^3/h) by the ideal-gas law at the new temperature and
      the dry-gas partial pressure; 0 when that pressure is not positive. */
  function GasVolume(p: real, pvo: real, tnew: real, dryAir: real, co2: real, nh3: real, o2: real)
    : (v: real)
    ensures p <= pvo ==> v == 0.0
    ensures p > pvo ==> v * (p - pvo) == GasConstant * Kelvin(tnew) * NetMoles(dryAir, co2, nh3, o2)
  {
    if p > pvo then
      var n := NetMoles(dryAir, co2, nh3, o2);
      var v := (GasConstant * Kelvin(tnew) / (p - pvo)) * n;
      assert v * (p - pvo) == GasConstant * Kelvin(tnew) * n;
      v
    else
      0.0
  }
}

=== FILE: common.dfy ===
/** Shared vocabulary of the bio-drying model: optional values, the errors a run
    can stop with, and finite sums of real sequences with the facts the balance
    proofs need about them. */
module Common {

  /** A value that may be absent (a parameter missing from the configuration). */
  datatype Option<+T> = None | Some(value: T)

  /** The ways a run of the engine stops instead of returning its series. */
  datatype SimError =
      /** Alternating aeration with on-time + off-time = 0: the hourly modulo divides by zero. */
    | ZeroCycleDuration
      /** Ambient temperature of -273 degrees C: the pressure correction divides by zero. */
    | AmbientAtAbsoluteZero
      /** Process temperature of -273 degrees C during an aerated hour: the outgoing
          vapour flow divides by zero and the run leaves the finite reals. */
    | ProcessAtAbsoluteZero(hour: nat)

  datatype Result<+T> = Success(value: T) | Failure(error: SimError)

  function Max(a: real, b: real): real
  {
    if a >= b then a else b
  }

  function Min(a: real, b: real): real
  {
    if a <= b then a else b
  }

  function Abs(x: real): real
  {
    if x >= 0.0 then x else -x
  }

  /** Sum of a sequence, accumulated from the front. */
  function Sum(s: seq<real>): real
    decreases |s|
  {
    if |s| == 0 then 0.0 else Sum(s[..|s| - 1]) + s[|s| - 1]
  }

  /** Sums are monotone in their terms. */
  lemma {:induction false} SumLe(a: seq<real>, b: seq<real>)
    requires |a| == |b|
    requires forall i :: 0 <= i < |a| ==> a[i] <= b[i]
    ensures Sum(a) <= Sum(b)
    decreases |a|
  {
    if |a| > 0 {
      SumLe(a[..|a| - 1], b[..|b| - 1]);
    }
  }

  /** Sums of termwise equal sequences are equal. */
  lemma SumEq(a: seq<real>, b: seq<real>)
    requires |a| == |b|
    requires forall i :: 0 <= i < |a| ==> a[i] == b[i]
    ensures Sum(a) == Sum(b)
  {
    SumLe(a, b);
    SumLe(b, a);
  }

  lemma SumNonNegative(a: seq<real>)
    requires forall i :: 0 <= i < |a| ==> a[i] >= 0.0
    ensures Sum(a) >= 0.0
  {
    SumLe(seq(|a|, i => 0.0), a);
    SumZero(|a|);
  }

  lemma {:induction false} SumZero(n: nat)
    ensures Sum(seq(n, i => 0.0)) == 0.0
  {
    if n > 0 {
      assert seq(n, i => 0.0)[..n - 1] == seq(n - 1, i => 0.0);
      SumZero(n - 1);
    }
  }

  /** The sum of n copies of v is n times v. */
  lemma {:induction false} SumConstant(n: nat, v: real)
    ensures Sum(seq(n, i => v)) == n as real * v
  {
    if n > 0 {
      assert seq(n, i => v)[..n - 1] == seq(n - 1, i => v);
      SumConstant(n - 1, v);
    }
  }

  /** The sum of termwise sums is the sum of the sums. */
  lemma {:induction false} SumAdd(a: seq<real>, b: seq<real>, c: seq<real>)
    requires |a| == |b| == |c|
    requires forall i :: 0 <= i < |c| ==> c[i] == a[i] + b[i]
    ensures Sum(c) == Sum(a) + Sum(b)
    decreases |c|
  {
    if |c| > 0 {
      SumAdd(a[..|a| - 1], b[..|b| - 1], c[..|c| - 1]);
    }
  }
}

/** The transcendental functions the engine evaluates in floating point. The model
    takes them as parameters and relies on nothing but the facts in Valid. */
module Transcendental {

  /** exp: the exponential; pow: real-exponent power; saturationPressure: the
      Antoine-type correlation exp(11.9 - 3990 / (234 + T)) * 10^5 in pascals. */
  datatype Functions = Functions(
    exp: real -> real,
    pow: (real, real) -> real,
    saturationPressure: real -> real)

  ghost predicate Valid(fns: Functions)
  {
    && (forall x :: fns.exp(x) > 0.0)
    && fns.exp(0.0) == 1.0
    && (forall x :: fns.saturationPressure(x) > 0.0)
  }
}

=== FILE: config.dfy ===
/** The process configuration: one record per substrate, the elemental
    compositions, the specific heats and the scalar process parameters, and the
    defaulting rules that fill compositions, heat capacities and the starting
    temperature when the configuration leaves them out (modelvic.py lines 22-41,
    112-149, 222-223). */
module Config {
  import opened Common
  import opened Hrt

  /** One input substrate. Fractions are percentages: fs of the flow is solids,
      fvs of the solids is volatile, fbvs of the volatile solids is biodegradable
      and ffbvs of that is fast-degrading. Rates are per day at 20 degrees C. */
  datatype Substrate = Substrate(
    flow: real,
    fs: real,
    fvs: real,
    fbvs: real,
    ffbvs: real,
    fastRate20: real,
    slowRate20: real)

  /** Elemental composition as atom counts: carbon, hydrogen, oxygen, nitrogen. */
  datatype Composition = Composition(c: real, h: real, o: real, n: real)

  /** The solids of one substrate while the run advances (kg). Ash and
      non-biodegradable matter never decay; bvs is the biodegradable total the
      degraded mass is measured against, fast and slow its two pools. */
  datatype Pools = Pools(ash: real, nbvs: real, bvs: real, fast: real, slow: real)

  /** Pools as the run keeps them: nothing negative, and the biodegradable total
      the sum of its fast and slow parts. */
  predicate PoolWellFormed(p: Pools)
  {
    p.ash >= 0.0 && p.nbvs >= 0.0 && p.fast >= 0.0 && p.slow >= 0.0 && p.bvs == p.fast + p.slow
  }

  predicate AllWellFormed(ps: seq<Pools>)
  {
    forall i :: 0 <= i < |ps| ==> PoolWellFormed(ps[i])
  }

  /** The solids of each substrate. */
  function PoolSolidsOf(ps: seq<Pools>): (r: seq<real>)
    ensures |r| == |ps| && forall i :: 0 <= i < |ps| ==> r[i] == ps[i].ash + ps[i].nbvs + ps[i].bvs
  {
    seq(|ps|, i requires 0 <= i < |ps| => ps[i].ash + ps[i].nbvs + ps[i].bvs)
  }

  function PoolSolids(ps: seq<Pools>): real
  {
    Sum(PoolSolidsOf(ps))
  }

  datatype SimConfig = SimConfig(
    substrates: seq<Substrate>,
    /** CHON rows given by the caller; empty means "use the built-in table". */
    ccs: seq<seq<real>>,
    /** Specific heats (kJ/kg/degC); None means 0.9 for every substrate. */
    cp: Option<seq<real>>,
    /** Starting temperatures; None means 20 degrees C for every substrate. */
    temperatures: Option<seq<real>>,
    /** Heat released per kg of biodegradable solids degraded (kJ/kg). */
    hbvs: real,
    hrt: HrtInput,
    airFlow: real,
    alternating: bool,
    onTime: real,
    offTime: real,
    ambientTemp: real,
    ambientRH: real,
    waterFlow: real)

  /** The scalar parameters as the caller's dictionary holds them: None for a
      key that is absent. */
  datatype ScalarInputs = ScalarInputs(
    hbvs: Option<real>,
    airFlow: Option<real>,
    alternating: Option<bool>,
    onTime: Option<real>,
    offTime: Option<real>,
    ambientTemp: Option<real>,
    ambientRH: Option<real>,
    waterFlow: Option<real>)

  /** The values a missing key stands for. */
  const DefaultHbvs: real := 16000.0
  const DefaultAirFlow: real := 10.0
  const DefaultOnTime: real := 1.0
  const DefaultOffTime: real := 0.5
  const DefaultAmbientTemp: real := 20.0
  const DefaultAmbientRH: real := 60.0
  const DefaultWaterFlow: real := 0.0

  /** The value of a key, or the default when the key is absent. */
  function GetOr<T>(o: Option<T>, default: T): (v: T)
    ensures o.Some? ==> v == o.value
    ensures o.None? ==> v == default
  {
    match o
    case Some(x) => x
    case None => default
  }

  /** The configuration a run uses: every scalar the caller gave is kept, and
      every absent one takes its documented default. */
  function ConfigOf(substrates: seq<Substrate>, ccs: seq<seq<real>>, cp: Option<seq<real>>,
                    temperatures: Option<seq<real>>, hrt: HrtInput, inputs: ScalarInputs)
    : (cfg: SimConfig)
    ensures cfg.substrates == substrates && cfg.ccs == ccs && cfg.cp == cp
    ensures cfg.temperatures == temperatures && cfg.hrt == hrt
    ensures inputs.hbvs.Some? ==> cfg.hbvs == inputs.hbvs.value
    ensures inputs.airFlow.Some? ==> cfg.airFlow == inputs.airFlow.value
    ensures inputs.alternating.Some? ==> cfg.alternating == inputs.alternating.value
    ensures inputs.onTime.Some? ==> cfg.onTime == inputs.onTime.value
    ensures inputs.offTime.Some? ==> cfg.offTime == inputs.offTime.value
    ensures inputs.ambientTemp.Some? ==> cfg.ambientTemp == inputs.ambientTemp.value
    ensures inputs.ambientRH.Some? ==> cfg.ambientRH == inputs.ambientRH.value
    ensures inputs.waterFlow.Some? ==> cfg.waterFlow == inputs.waterFlow.value
    ensures inputs.hbvs.None? ==> cfg.hbvs == DefaultHbvs
    ensures inputs.airFlow.None? ==> cfg.airFlow == DefaultAirFlow
    ensures inputs.alternating.None? ==> !cfg.alternating
    ensures inputs.onTime.None? ==> cfg.onTime == DefaultOnTime
    ensures inputs.offTime.None? ==> cfg.offTime == DefaultOffTime
    ensures inputs.ambientTemp.None? ==> cfg.ambientTemp == DefaultAmbientTemp
    ensures inputs.ambientRH.None? ==> cfg.ambientRH == DefaultAmbientRH
    ensures inputs.waterFlow.None? ==> cfg.waterFlow == DefaultWaterFlow
  {
    SimConfig(substrates, ccs, cp, temperatures,
              GetOr(inputs.hbvs, DefaultHbvs), hrt,
              GetOr(inputs.airFlow, DefaultAirFlow), GetOr(inputs.alternating, false),
              GetOr(inputs.onTime, DefaultOnTime), GetOr(inputs.offTime, DefaultOffTime),
              GetOr(inputs.ambientTemp, DefaultAmbientTemp), GetOr(inputs.ambientRH, DefaultAmbientRH),
              GetOr(inputs.waterFlow, DefaultWaterFlow))
  }

  /** With no scalar keys at all, the run aerates continuously at 10 m^3/h in
      20 degC air of 60 % humidity, adds no water, and releases 16000 kJ per kg
      degraded. */
  lemma NoScalarKeysGivesDefaults(substrates: seq<Substrate>, ccs: seq<seq<real>>, cp: Option<seq<real>>,
                                  temperatures: Option<seq<real>>, hrt: HrtInput)
    ensures var cfg := ConfigOf(substrates, ccs, cp, temperatures, hrt,
                                ScalarInputs(None, None, None, None, None, None, None, None));
      && cfg.hbvs == 16000.0 && cfg.airFlow == 10.0 && !cfg.alternating
      && cfg.onTime == 1.0 && cfg.offTime == 0.5
      && cfg.ambientTemp == 20.0 && cfg.ambientRH == 60.0 && cfg.waterFlow == 0.0
  {
  }

  const NoComposition := Composition(0.0, 0.0, 0.0, 0.0)

  /** Composition used for substrates beyond the eight built-in ones. */
  const PaddingComposition := Composition(4.43, 6.5, 2.2, 0.3)

  /** The eight built-in compositions (mass percentages divided by atomic mass). */
  const DefaultCompositions: seq<Composition> := [
    Composition(53.19 / 12.0, 7.48, 35.46 / 16.0, 3.88 / 14.0),
    Composition(40.0 / 12.0, 6.0, 40.0 / 16.0, 1.0 / 14.0),
    Composition(50.0 / 12.0, 6.7, 1.0 / 16.0, 1.0 / 14.0),
    Composition(40.0 / 12.0, 6.0, 30.0 / 16.0, 1.0 / 14.0),
    Composition(10.0 / 12.0, 1.0, 50.0 / 16.0, 0.5 / 14.0),
    Composition(10.0 / 12.0, 1.0, 1.0 / 16.0, 0.5 / 14.0),
    Composition(30.0 / 12.0, 5.0, 10.0 / 16.0, 2.0 / 14.0),
    Composition(30.0 / 12.0, 5.0, 20.0 / 16.0, 1.0 / 14.0)
  ]

  /** The composition of each of the ns substrates. Caller rows shorter than four
      entries, and substrates without a row, get the all-zero composition; with
      no rows at all the built-in table is used and padded past its eighth entry. */
  function CompositionTable(ccs: seq<seq<real>>, ns: nat): (r: seq<Composition>)
    ensures |r| == ns
    ensures |ccs| > 0 ==> forall i :: 0 <= i < ns && i < |ccs| && |ccs[i]| >= 4 ==>
      r[i] == Composition(ccs[i][0], ccs[i][1], ccs[i][2], ccs[i][3])
    ensures |ccs| > 0 ==> forall i :: 0 <= i < ns && (i >= |ccs| || |ccs[i]| < 4) ==>
      r[i] == NoComposition
    ensures |ccs| == 0 ==> forall i :: 0 <= i < ns && i < |DefaultCompositions| ==>
      r[i] == DefaultCompositions[i]
    ensures |ccs| == 0 ==> forall i :: |DefaultCompositions| <= i < ns ==>
      r[i] == PaddingComposition
  {
    if |ccs| > 0 then
      seq(ns, i requires 0 <= i < ns =>
        if i < |ccs| && |ccs[i]| >= 4 then Composition(ccs[i][0], ccs[i][1], ccs[i][2], ccs[i][3])
        else NoComposition)
    else if ns <= |DefaultCompositions| then
      DefaultCompositions[..ns]
    else
      DefaultCompositions + seq(ns - |DefaultCompositions|, i => PaddingComposition)
  }

  /** The specific heat of each substrate: 0.9 when none are given, and a short
      list padded with 1.0. A list longer than the substrates keeps its tail. */
  function CpTable(cp: Option<seq<real>>, ns: nat): (r: seq<real>)
    ensures |r| >= ns
    ensures cp.None? ==> forall i :: 0 <= i < ns ==> r[i] == 0.9
    ensures cp.Some? ==> forall i :: 0 <= i < ns && i < |cp.value| ==> r[i] == cp.value[i]
    ensures cp.Some? ==> forall i :: |cp.value| <= i < ns ==> r[i] == 1.0
  {
    match cp
    case None => seq(ns, i => 0.9)
    case Some(c) => if |c| < ns then c + seq(ns - |c|, i => 1.0) else c
  }

  /** Starting process temperature: the mean of the given temperatures, or of ns
      copies of 20 degrees C. */
  function InitialTemperature(temperatures: Option<seq<real>>, ns: nat): (t0: real)
    requires temperatures.None? ==> ns >= 1
    requires temperatures.Some? ==> |temperatures.value| >= 1
    ensures temperatures.None? ==> t0 == 20.0
    ensures temperatures.Some? ==> t0 * |temperatures.value| as real == Sum(temperatures.value)
  {
    match temperatures
    case None =>
      SumConstant(ns, 20.0);
      Sum(seq(ns, i => 20.0)) / ns as real
    case Some(ts) => Sum(ts) / |ts| as real
  }
}

=== FILE: engine.dfy ===
/** The whole run (modelvic.py lines 11-531): the HRT, the initial state from the
    substrate split, the airflow schedule, the row for hour 0, HRT hourly steps,
    and the eight index-aligned series plus the process volume. */
module Engine {
  import opened Common
  import opened Transcendental
  import opened Hrt
  import opened Config
  import opened InitialSplit
  import opened Aeration
  import opened Balance
  import opened Hourly

  /** The eight series, one entry per hour from 0 to HRT, and the process volume (m^3). */
  datatype Series = Series(
    times: seq<nat>,
    temperatures: seq<real>,
    moisture: seq<real>,
    moistureFraction: seq<real>,
    exhaustMass: seq<real>,
    exhaustVolume: seq<real>,
    relativeHumidity: seq<real>,
    solids: seq<real>,
    processVolume: real)

  /** Relative humidity reported for hour 0, before any air has passed. */
  const InitialRelativeHumidity: real := 60.0

  function PlantOf(cfg: SimConfig, hrt: nat): (plant: Plant)
    ensures |plant.compositions| == |plant.substrates| == |cfg.substrates|
    ensures |plant.cp| >= |cfg.substrates|
    ensures plant.hrt == hrt
  {
    var ns := |cfg.substrates|;
    Plant(cfg.substrates, CompositionTable(cfg.ccs, ns), CpTable(cfg.cp, ns),
          cfg.hbvs, hrt, cfg.ambientTemp, cfg.ambientRH, cfg.waterFlow)
  }

  /** Total initial solids (kg). */
  function InitialSolids(cfg: SimConfig): real
    requires ValidConfig(cfg)
  {
    PoolSolids(InitialPools(cfg.substrates))
  }

  /** Total initial moisture (kg). */
  function InitialMoisture(cfg: SimConfig): real
    requires ValidConfig(cfg)
  {
    Sum(MoistureOf(Splits(cfg.substrates)))
  }

  /** The solids that can never decay: all ash and non-biodegradable matter. */
  function NonDegradable(cfg: SimConfig): real
    requires ValidConfig(cfg)
  {
    FixedSolids(InitialPools(cfg.substrates))
  }

  /** The state the first hour starts from: the mean starting temperature, all
      the moisture, the mixture's percentages and the split pools. Its pools
      are well formed and hold exactly the initial solids, and its solids and
      moisture percentages are shares of the total flow that add up to 100. */
  function InitialState(cfg: SimConfig): (st: State)
    requires ValidConfig(cfg)
    ensures |st.pools| == |cfg.substrates|
    ensures AllWellFormed(st.pools)
    ensures PoolSolids(st.pools) == InitialSolids(cfg)
    ensures st.temperature == InitialTemperature(cfg.temperatures, |cfg.substrates|)
    ensures st.moisture == InitialMoisture(cfg) >= 0.0
    ensures 0.0 <= st.fs <= 100.0 && 0.0 <= st.fh <= 100.0 && 0.0 <= st.fvs <= 100.0
    ensures st.fs + st.fh == 100.0
  {
    var subs := cfg.substrates;
    var ps := InitialPools(subs);
    var total := Sum(Flows(subs));
    var solids := PoolSolids(ps);
    var moisture := Sum(MoistureOf(Splits(subs)));
    var volatile := Sum(VolatileOf(Splits(subs)));
    InitialTotalsInRange(subs);
    SplitConservesFlow(subs);
    TwoShares(solids, moisture, total);
    TwoShares(volatile, solids - volatile, solids);
    State(InitialTemperature(cfg.temperatures, |subs|), moisture, solids / total * 100.0,
          moisture / total * 100.0, volatile / solids * 100.0, ps)
  }

  /** Two non-negative parts of a positive total, as percentages of it: each
      lies in [0, 100] and the two add up to 100. */
  lemma TwoShares(part: real, rest: real, total: real)
    requires part >= 0.0 && rest >= 0.0 && total == part + rest && total > 0.0
    ensures 0.0 <= part / total * 100.0 <= 100.0
    ensures 0.0 <= rest / total * 100.0 <= 100.0
    ensures part / total * 100.0 + rest / total * 100.0 == 100.0
  {
    var a, b := part / total, rest / total;
    assert a * total == part && b * total == rest;
    assert (a + b) * total == a * total + b * total;
    assert (a + b - 1.0) * total == 0.0;
  }

  /** A sequence whose every entry is at most the one before never rises. */
  lemma {:induction false} StepwiseNonIncreasing(s: seq<real>)
    requires forall i :: 0 < i < |s| ==> s[i] <= s[i - 1]
    ensures forall i, j :: 0 <= i <= j < |s| ==> s[j] <= s[i]
  {
    if |s| > 1 {
      var init := s[..|s| - 1];
      StepwiseNonIncreasing(init);
      forall i | 0 <= i < |s| - 1
        ensures s[|s| - 1] <= s[i]
      {
        assert init[i] == s[i];
        assert s[|s| - 1] <= s[|s| - 2];
      }
    }
  }

  /** What every reported row satisfies: row i is hour i, the solids never rise
      from one row to the next and never fall below floor, moisture is
      non-negative, the moisture percentage lies in [0, 100], and the relative
      humidity is at most 100 and, for a non-negative ambient humidity, at least 0. */
  predicate RowsInvariant(rows: seq<Row>, floor: real, ambientRH: real)
  {
    && (forall i :: 0 <= i < |rows| ==> rows[i].hour == i)
    && (forall i :: 0 < i < |rows| ==> rows[i].solids <= rows[i - 1].solids)
    && (forall i :: 0 <= i < |rows| ==> RowInRange(rows[i], floor, ambientRH))
  }

  predicate RowInRange(row: Row, floor: real, ambientRH: real)
  {
    && row.solids >= floor
    && row.moisture >= 0.0
    && 0.0 <= row.moistureFraction <= 100.0
    && row.relativeHumidity <= 100.0
    && (ambientRH >= 0.0 ==> row.relativeHumidity >= 0.0)
  }

  /** Appending the row of the next hour keeps the invariant. */
  lemma AppendRow(rows: seq<Row>, row: Row, floor: real, ambientRH: real)
    requires RowsInvariant(rows, floor, ambientRH) && |rows| >= 1
    requires row.hour == |rows|
    requires row.solids <= rows[|rows| - 1].solids
    requires RowInRange(row, floor, ambientRH)
    ensures RowsInvariant(rows + [row], floor, ambientRH)
  {
    var ext := rows + [row];
    forall i | 0 <= i < |ext|
      ensures ext[i].hour == i && RowInRange(ext[i], floor, ambientRH)
    {
      if i < |rows| {
        assert ext[i] == rows[i];
      }
    }
    forall i | 0 < i < |ext|
      ensures ext[i].solids <= ext[i - 1].solids
    {
      if i < |rows| {
        assert ext[i] == rows[i] && ext[i - 1] == rows[i - 1];
      }
    }
  }

  /** The eight series read off the rows, one entry per row. */
  function SeriesOf(rows: seq<Row>, processVolume: real): (s: Series)
    ensures |s.times| == |s.temperatures| == |s.moisture| == |s.moistureFraction| == |rows|
    ensures |s.exhaustMass| == |s.exhaustVolume| == |s.relativeHumidity| == |s.solids| == |rows|
    ensures forall i :: 0 <= i < |rows| ==>
      && s.times[i] == rows[i].hour && s.temperatures[i] == rows[i].temperature
      && s.moisture[i] == rows[i].moisture && s.moistureFraction[i] == rows[i].moistureFraction
      && s.exhaustMass[i] == rows[i].exhaustMass && s.exhaustVolume[i] == rows[i].exhaustVolume
      && s.relativeHumidity[i] == rows[i].relativeHumidity && s.solids[i] == rows[i].solids
    ensures s.processVolume == processVolume
  {
    var n := |rows|;
    Series(
      seq(n, i requires 0 <= i < n => rows[i].hour),
      seq(n, i requires 0 <= i < n => rows[i].temperature),
      seq(n, i requires 0 <= i < n => rows[i].moisture),
      seq(n, i requires 0 <= i < n => rows[i].moistureFraction),
      seq(n, i requires 0 <= i < n => rows[i].exhaustMass),
      seq(n, i requires 0 <= i < n => rows[i].exhaustVolume),
      seq(n, i requires 0 <= i < n => rows[i].relativeHumidity),
      seq(n, i requires 0 <= i < n => rows[i].solids),
      processVolume)
  }

  /** The series of a run satisfy everything RowsInvariant says of its rows, and
      the solids never rise over any span of hours. */
  predicate SeriesInvariant(s: Series, n: nat, floor: real, ambientRH: real)
  {
    && |s.times| == |s.temperatures| == |s.moisture| == |s.moistureFraction| == n
    && |s.exhaustMass| == |s.exhaustVolume| == |s.relativeHumidity| == |s.solids| == n
    && (forall i :: 0 <= i < n ==> s.times[i] == i)
    && (forall i, j :: 0 <= i <= j < n ==> s.solids[j] <= s.solids[i])
    && (forall i :: 0 <= i < n ==> s.solids[i] >= floor)
    && (forall i :: 0 <= i < n ==> s.moisture[i] >= 0.0)
    && (forall i :: 0 <= i < n ==> 0.0 <= s.moistureFraction[i] <= 100.0)
    && (forall i :: 0 <= i < n ==> s.relativeHumidity[i] <= 100.0)
    && (ambientRH >= 0.0 ==> forall i :: 0 <= i < n ==> s.relativeHumidity[i] >= 0.0)
  }

  lemma SeriesFromRows(rows: seq<Row>, processVolume: real, floor: real, ambientRH: real)
    requires RowsInvariant(rows, floor, ambientRH)
    ensures SeriesInvariant(SeriesOf(rows, processVolume), |rows|, floor, ambientRH)
  {
    var s := SeriesOf(rows, processVolume);
    StepwiseNonIncreasing(s.solids);
  }

  /** Runs the simulation for the configuration's HRT hours.
      Errors: an alternating schedule with a zero-hour cycle, then an ambient
      temperature of -273 degC, then an aerated hour at a process temperature
      of -273 degC. Without airflow only the first two can happen.
      Past those checks the result is the reference Run read into series: the
      run fails exactly when Run does, with the same error, and otherwise holds
      Run's rows. On success every series has HRT + 1 entries, hour i is reported at index
      i, hour 0 holds the starting mixture with no exhaust and 60 % humidity,
      the solids never rise and never fall below the ash and non-biodegradable
      matter, moisture is non-negative, the moisture percentage and the
      relative humidity stay in range, and the process volume is the total
      flow over the bulk density of 1000 kg/m^3. */
  method Simulate(fns: Functions, cfg: SimConfig) returns (r: Result<Series>)
    requires Valid(fns)
    requires ValidConfig(cfg)
    ensures r.Failure? && r.error == ZeroCycleDuration <==>
      cfg.alternating && cfg.onTime + cfg.offTime == 0.0
    ensures r.Failure? && r.error == AmbientAtAbsoluteZero <==>
      !(cfg.alternating && cfg.onTime + cfg.offTime == 0.0) && Kelvin(cfg.ambientTemp) == 0.0
    ensures r.Failure? && r.error.ProcessAtAbsoluteZero? ==> r.error.hour < ParseHrt(cfg.hrt)
    ensures (!(cfg.alternating && cfg.onTime + cfg.offTime == 0.0) && Kelvin(cfg.ambientTemp) != 0.0
             && cfg.airFlow <= 0.0) ==> r.Success?
    ensures r.Success? ==>
      && SeriesInvariant(r.value, ParseHrt(cfg.hrt) + 1, NonDegradable(cfg), cfg.ambientRH)
      && r.value.temperatures[0] == InitialTemperature(cfg.temperatures, |cfg.substrates|)
      && r.value.moisture[0] == InitialMoisture(cfg)
      && r.value.solids[0] == InitialSolids(cfg)
      && r.value.exhaustMass[0] == 0.0 && r.value.exhaustVolume[0] == 0.0
      && r.value.relativeHumidity[0] == InitialRelativeHumidity
      && r.value.moistureFraction[0] == InitialState(cfg).fh
      && r.value.processVolume == Sum(Flows(cfg.substrates)) / 1000.0
    ensures !(cfg.alternating && cfg.onTime + cfg.offTime == 0.0) && Kelvin(cfg.ambientTemp) != 0.0 ==>
      r == SeriesResult(Run(fns, cfg), ProcessVolume(cfg.substrates))
  {
    var hrt := ParseHrt(cfg.hrt);
    var schedule := BuildAirSchedule(cfg.alternating, cfg.airFlow, cfg.onTime, cfg.offTime, hrt);
    if schedule.Failure? {
      return Failure(schedule.error);
    }
    if Kelvin(cfg.ambientTemp) == 0.0 {
      return Failure(AmbientAtAbsoluteZero);
    }
    r := RunSeries(fns, cfg, schedule.value);
    if r.Failure? {
      AeratedHourHasFlow(schedule.value, cfg.alternating, cfg.airFlow, cfg.onTime, cfg.offTime, hrt, r.error.hour);
    }
  }

  /** The run once the schedule is built and the ambient temperature passes:
      the hourly loop from the initial state, read into series. It is the
      reference Run read into series; it fails only at an aerated hour. */
  method RunSeries(fns: Functions, cfg: SimConfig, q: seq<real>) returns (r: Result<Series>)
    requires Valid(fns)
    requires ValidConfig(cfg)
    requires !(cfg.alternating && cfg.onTime + cfg.offTime == 0.0) && Kelvin(cfg.ambientTemp) != 0.0
    requires IsAirSchedule(q, cfg.alternating, cfg.airFlow, cfg.onTime, cfg.offTime, ParseHrt(cfg.hrt))
    ensures r == SeriesResult(Run(fns, cfg), ProcessVolume(cfg.substrates))
    ensures r.Failure? ==>
      r.error.ProcessAtAbsoluteZero? && r.error.hour < ParseHrt(cfg.hrt) && q[r.error.hour] > 0.0
    ensures r.Success? ==> RunShape(cfg, r.value)
  {
    var plant := PlantOf(cfg, ParseHrt(cfg.hrt));
    var st := InitialState(cfg);
    FixedBelowSolids(st.pools);
    var run := RunHours(fns, plant, q, st, FirstRow(cfg));
    LoopIsRun(fns, cfg, q, run);
    if run.Failure? {
      return Failure(run.error);
    }
    ShapeOfRows(cfg, run.value);
    return Success(SeriesOf(run.value, ProcessVolume(cfg.substrates)));
  }

  /** What the series of a successful run satisfy: SeriesInvariant over HRT + 1
      hours above the non-degradable solids, hour 0 with the starting mixture,
      no exhaust and the initial humidity, and the process volume the total
      flow over 1000. */
  predicate RunShape(cfg: SimConfig, s: Series)
    requires ValidConfig(cfg)
  {
    && SeriesInvariant(s, ParseHrt(cfg.hrt) + 1, NonDegradable(cfg), cfg.ambientRH)
    && s.temperatures[0] == InitialTemperature(cfg.temperatures, |cfg.substrates|)
    && s.moisture[0] == InitialMoisture(cfg)
    && s.solids[0] == InitialSolids(cfg)
    && s.exhaustMass[0] == 0.0 && s.exhaustVolume[0] == 0.0
    && s.relativeHumidity[0] == InitialRelativeHumidity
    && s.moistureFraction[0] == InitialState(cfg).fh
    && s.processVolume == Sum(Flows(cfg.substrates)) / 1000.0
  }

  /** Rows that start with hour 0's row and keep RowsInvariant read into
      series of that shape. */
  lemma ShapeOfRows(cfg: SimConfig, rows: seq<Row>)
    requires ValidConfig(cfg)
    requires |rows| == ParseHrt(cfg.hrt) + 1 && rows[0] == FirstRow(cfg)
    requires RowsInvariant(rows, FixedSolids(InitialState(cfg).pools), cfg.ambientRH)
    ensures RunShape(cfg, SeriesOf(rows, ProcessVolume(cfg.substrates)))
  {
    ProcessVolumeIsTotalFlow(cfg.substrates);
    SeriesFromRows(rows, ProcessVolume(cfg.substrates), NonDegradable(cfg), cfg.ambientRH);
  }

  /** The hourly loop: steps the state through hours 0 to HRT - 1 with the
      schedule's airflow, after the given row for hour 0. It fails only at an
      aerated hour, so never when no hour is aerated; on success it returns
      HRT + 1 rows that begin with the given one and keep RowsInvariant, with
      the floor the pools' non-decaying solids. Its result is the given row
      before the reference Rows: each later row is the one Step reports for
      its hour, and the loop fails at the first hour Step fails. */
  method RunHours(fns: Functions, plant: Plant, q: seq<real>, st0: State, first: Row)
    returns (r: Result<seq<Row>>)
    requires Valid(fns)
    requires Fits(plant, st0)
    requires Kelvin(plant.ambientTemp) != 0.0
    requires |q| == plant.hrt
    requires first.hour == 0 && first.solids == PoolSolids(st0.pools)
    requires RowInRange(first, FixedSolids(st0.pools), plant.ambientRH)
    ensures r.Failure? ==> r.error.ProcessAtAbsoluteZero? && r.error.hour < plant.hrt
    ensures r.Failure? ==> q[r.error.hour] > 0.0
    ensures r.Success? ==>
      && |r.value| == plant.hrt + 1
      && r.value[0] == first
      && RowsInvariant(r.value, FixedSolids(st0.pools), plant.ambientRH)
    ensures r == Prepend([first], Rows(fns, plant, q, 0, st0))
  {
    var floor := FixedSolids(st0.pools);
    var fixed := FixedSolidsOf(st0.pools);
    var st := st0;
    var rows := [first];
    var t := 0;
    ghost var target := Prepend([first], Rows(fns, plant, q, 0, st0));
    while t < plant.hrt
      invariant 0 <= t <= plant.hrt
      invariant |rows| == t + 1 && rows[0] == first
      invariant Fits(plant, st)
      invariant FixedSolidsOf(st.pools) == fixed
      invariant rows[t].solids == PoolSolids(st.pools)
      invariant RowsInvariant(rows, floor, plant.ambientRH)
      invariant target == Prepend(rows, Rows(fns, plant, q, t, st))
    {
      var step := Step(fns, plant, t, q[t], st);
      RowsUnfold(fns, plant, q, t, st, rows);
      if step.Failure? {
        return Failure(step.error);
      }
      AppendRow(rows, step.value.row, floor, plant.ambientRH);
      rows := rows + [step.value.row];
      st := step.value.next;
      t := t + 1;
    }
    RowsDone(fns, plant, q, st, rows);
    return Success(rows);
  }

  /** The rows of hours t + 1 to HRT, stepping from state st at hour t with the
      schedule's airflow: the reference definition of the hourly loop. It fails
      with the error of the first hour Step fails, at an aerated hour. */
  function Rows(fns: Functions, plant: Plant, q: seq<real>, t: nat, st: State): (r: Result<seq<Row>>)
    requires Valid(fns)
    requires Fits(plant, st)
    requires Kelvin(plant.ambientTemp) != 0.0
    requires |q| == plant.hrt && t <= plant.hrt
    ensures r.Success? ==> |r.value| == plant.hrt - t
    ensures r.Failure? ==>
      && r.error.ProcessAtAbsoluteZero? && t <= r.error.hour < plant.hrt && q[r.error.hour] > 0.0
    decreases plant.hrt - t
  {
    if t == plant.hrt then Success([])
    else
      match Step(fns, plant, t, q[t], st)
      case Failure(e) => Failure(e)
      case Success(h) => Prepend([h.row], Rows(fns, plant, q, t + 1, h.next))
  }

  /** Rows before a run's rows; a failed run stays failed. */
  function Prepend(rows: seq<Row>, run: Result<seq<Row>>): Result<seq<Row>>
  {
    match run
    case Success(rest) => Success(rows + rest)
    case Failure(e) => Failure(e)
  }

  /** One hour of the reference: after rows, a failed Step ends the run with
      its error, and a completed one adds its row before the rest. */
  lemma RowsUnfold(fns: Functions, plant: Plant, q: seq<real>, t: nat, st: State, rows: seq<Row>)
    requires Valid(fns)
    requires Fits(plant, st)
    requires Kelvin(plant.ambientTemp) != 0.0
    requires |q| == plant.hrt && t < plant.hrt
    ensures Step(fns, plant, t, q[t], st).Failure? ==>
      Prepend(rows, Rows(fns, plant, q, t, st)) == Failure(Step(fns, plant, t, q[t], st).error)
    ensures Step(fns, plant, t, q[t], st).Success? ==>
      var h := Step(fns, plant, t, q[t], st).value;
      Prepend(rows, Rows(fns, plant, q, t, st)) == Prepend(rows + [h.row], Rows(fns, plant, q, t + 1, h.next))
  {
    var step := Step(fns, plant, t, q[t], st);
    if step.Success? {
      PrependTwice(rows, [step.value.row], Rows(fns, plant, q, t + 1, step.value.next));
    }
  }

  lemma RowsDone(fns: Functions, plant: Plant, q: seq<real>, st: State, rows: seq<Row>)
    requires Valid(fns)
    requires Fits(plant, st)
    requires Kelvin(plant.ambientTemp) != 0.0
    requires |q| == plant.hrt
    ensures Prepend(rows, Rows(fns, plant, q, plant.hrt, st)) == Success(rows)
  {
    assert rows + [] == rows;
  }

  lemma PrependTwice(xs: seq<Row>, ys: seq<Row>, run: Result<seq<Row>>)
    ensures Prepend(xs, Prepend(ys, run)) == Prepend(xs + ys, run)
  {
    if run.Success? {
      assert xs + (ys + run.value) == (xs + ys) + run.value;
    }
  }

  /** The row reported for hour 0: the starting mixture, no exhaust, and the
      initial relative humidity. */
  function FirstRow(cfg: SimConfig): Row
    requires ValidConfig(cfg)
  {
    var st := InitialState(cfg);
    Row(0, st.temperature, st.moisture, st.fh, 0.0, 0.0, InitialRelativeHumidity, PoolSolids(st.pools))
  }

  /** The reference run of a configuration whose schedule and ambient
      temperature pass: hour 0's row, then the rows Step produces hour by hour
      from the initial state under the schedule. */
  function Run(fns: Functions, cfg: SimConfig): Result<seq<Row>>
    requires Valid(fns)
    requires ValidConfig(cfg)
    requires !(cfg.alternating && cfg.onTime + cfg.offTime == 0.0) && Kelvin(cfg.ambientTemp) != 0.0
  {
    var hrt := ParseHrt(cfg.hrt);
    var q := Schedule(cfg.alternating, cfg.airFlow, cfg.onTime, cfg.offTime, hrt);
    Prepend([FirstRow(cfg)], Rows(fns, PlantOf(cfg, hrt), q, 0, InitialState(cfg)))
  }

  /** The loop over the built schedule, after hour 0's row, is the reference run. */
  lemma LoopIsRun(fns: Functions, cfg: SimConfig, q: seq<real>, run: Result<seq<Row>>)
    requires Valid(fns)
    requires ValidConfig(cfg)
    requires !(cfg.alternating && cfg.onTime + cfg.offTime == 0.0) && Kelvin(cfg.ambientTemp) != 0.0
    requires IsAirSchedule(q, cfg.alternating, cfg.airFlow, cfg.onTime, cfg.offTime, ParseHrt(cfg.hrt))
    requires run == Prepend([FirstRow(cfg)], Rows(fns, PlantOf(cfg, ParseHrt(cfg.hrt)), q, 0, InitialState(cfg)))
    ensures run == Run(fns, cfg)
  {
    ScheduleUnique(q, cfg.alternating, cfg.airFlow, cfg.onTime, cfg.offTime, ParseHrt(cfg.hrt));
  }

  /** A run's rows read into series; a failed run stays failed. */
  function SeriesResult(run: Result<seq<Row>>, processVolume: real): Result<Series>
  {
    match run
    case Success(rows) => Success(SeriesOf(rows, processVolume))
    case Failure(e) => Failure(e)
  }

  /** The part of well-formed pools that never decays is at most their solids. */
  lemma FixedBelowSolids(ps: seq<Pools>)
    requires AllWellFormed(ps)
    ensures FixedSolids(ps) <= PoolSolids(ps)
  {
    SumLe(FixedSolidsOf(ps), PoolSolidsOf(ps));
  }
}

=== FILE: hourly.dfy ===
/** One hour of the simulation loop (modelvic.py lines 265-515): inhibition from
    the start-of-hour fractions, decay of every substrate's pools at the
    start-of-hour temperature, the products of degradation, the moisture and
    energy balances, and the exhaust gas at the updated temperature. */
module Hourly {
  import opened Common
  import opened Transcendental
  import opened Config
  import opened Kinetics
  import opened Balance

  /** The process between two hours: temperature (degC), moisture (kg), the
      solids, moisture and volatile percentages, and each substrate's pools. */
  datatype State = State(
    temperature: real,
    moisture: real,
    fs: real,
    fh: real,
    fvs: real,
    pools: seq<Pools>)

  /** The parameters that stay fixed during a run. */
  datatype Plant = Plant(
    substrates: seq<Substrate>,
    compositions: seq<Composition>,
    cp: seq<real>,
    hbvs: real,
    hrt: nat,
    ambientTemp: real,
    ambientRH: real,
    waterFlow: real)

  /** One entry of each output series. */
  datatype Row = Row(
    hour: nat,
    temperature: real,
    moisture: real,
    moistureFraction: real,
    exhaustMass: real,
    exhaustVolume: real,
    relativeHumidity: real,
    solids: real)

  /** Mass flows exchanged during the hour (kg/h): air and vapour, gases and the
      water degradation produces; the outgoing vapour pressure (Pa) and the
      heat-loss coefficient the airflow sets. */
  datatype Exchange = Exchange(
    dryAirIn: real,
    vapourIn: real,
    vapourOut: real,
    co2: real,
    o2: real,
    nh3: real,
    waterProduced: real,
    vapourPressureOut: real,
    lossCoefficient: real)

  /** The hour's energy terms (kJ/h) and the heat capacity (kJ/degC) they act on. */
  datatype Energy = Energy(generated: real, evaporation: real, loss: real, capacity: real)

  datatype Hour = Hour(next: State, row: Row, exchange: Exchange, energy: Energy)

  /** The part of each substrate's solids that never decays. */
  function FixedSolidsOf(ps: seq<Pools>): (r: seq<real>)
    ensures |r| == |ps| && forall i :: 0 <= i < |ps| ==> r[i] == ps[i].ash + ps[i].nbvs
  {
    seq(|ps|, i requires 0 <= i < |ps| => ps[i].ash + ps[i].nbvs)
  }

  function AshOf(ps: seq<Pools>): (r: seq<real>)
    ensures |r| == |ps| && forall i :: 0 <= i < |ps| ==> r[i] == ps[i].ash
  {
    seq(|ps|, i requires 0 <= i < |ps| => ps[i].ash)
  }

  function FixedSolids(ps: seq<Pools>): real
  {
    Sum(FixedSolidsOf(ps))
  }

  /** Whether a plant and a state belong together: one composition and at least
      one specific heat per substrate, one well-formed pool record per substrate,
      a run of at least one hour, and a volatile percentage the particle density
      accepts. Step keeps it. */
  predicate Fits(plant: Plant, st: State)
  {
    && |plant.compositions| == |plant.substrates| == |st.pools|
    && AllWellFormed(st.pools)
    && |plant.cp| >= |plant.substrates|
    && plant.hrt >= 1
    && 0.0 <= st.fvs <= 100.0
  }

  /** Every substrate's hour, at the common temperature bracket and inhibition. */
  function DegradeAll(plant: Plant, ps: seq<Pools>, bracket: real, f1: real, f2: real)
    : (hs: seq<SubstrateHour>)
    requires |plant.compositions| == |plant.substrates| == |ps|
    requires 0.0 < f1 < 1.0 && 0.0 < f2 < 1.0
    ensures |hs| == |ps|
    ensures forall i :: 0 <= i < |ps| ==>
      hs[i] == DegradeSubstrate(plant.substrates[i], plant.compositions[i], ps[i], bracket, f1, f2)
  {
    seq(|ps|, i requires 0 <= i < |ps| =>
      DegradeSubstrate(plant.substrates[i], plant.compositions[i], ps[i], bracket, f1, f2))
  }

  /** The pools after the hour: ash and non-biodegradable matter carried over,
      the biodegradable pools replaced by what decay left. */
  function Advance(ps: seq<Pools>, hs: seq<SubstrateHour>): (r: seq<Pools>)
    requires |hs| == |ps|
    ensures |r| == |ps|
    ensures forall i :: 0 <= i < |ps| ==>
      r[i] == Pools(ps[i].ash, ps[i].nbvs, hs[i].bvs, hs[i].fast, hs[i].slow)
  {
    seq(|ps|, i requires 0 <= i < |ps| => Pools(ps[i].ash, ps[i].nbvs, hs[i].bvs, hs[i].fast, hs[i].slow))
  }

  function HourSolids(hs: seq<SubstrateHour>): (r: seq<real>)
    ensures |r| == |hs| && forall i :: 0 <= i < |hs| ==> r[i] == hs[i].solids
  {
    seq(|hs|, i requires 0 <= i < |hs| => hs[i].solids)
  }

  /** One column of the substrates' hours. */
  function Column(hs: seq<SubstrateHour>, f: SubstrateHour -> real): (r: seq<real>)
    ensures |r| == |hs| && forall i :: 0 <= i < |hs| ==> r[i] == f(hs[i])
  {
    seq(|hs|, i requires 0 <= i < |hs| => f(hs[i]))
  }

  /** Cp_total (kJ/degC): the solids, the moisture and the exhaust gas after the hour. */
  function HeatCapacity(hs: seq<SubstrateHour>, cp: seq<real>, moisture: real, exhaust: real): real
    requires |cp| >= |hs|
  {
    SolidsHeatCapacity(hs, cp) + moisture * WaterHeatCapacity + exhaust * AirHeatCapacity
  }

  /** Sum over substrates of solids times specific heat. */
  function SolidsHeatCapacity(hs: seq<SubstrateHour>, cp: seq<real>): real
    requires |cp| >= |hs|
  {
    Sum(seq(|hs|, i requires 0 <= i < |hs| => hs[i].solids * cp[i]))
  }

  /** The hour's decay keeps every pool well formed, leaves ash and
      non-biodegradable matter as they were, and never raises a substrate's
      solids nor drops them below the part that does not decay. */
  lemma AdvanceFacts(ps: seq<Pools>, hs: seq<SubstrateHour>, next: seq<Pools>,
                     plant: Plant, bracket: real, f1: real, f2: real)
    requires |plant.compositions| == |plant.substrates| == |ps|
    requires 0.0 < f1 < 1.0 && 0.0 < f2 < 1.0
    requires hs == DegradeAll(plant, ps, bracket, f1, f2)
    requires next == Advance(ps, hs)
    requires AllWellFormed(ps)
    ensures AllWellFormed(next)
    ensures FixedSolidsOf(next) == FixedSolidsOf(ps)
    ensures AshOf(next) == AshOf(ps)
    ensures Sum(HourSolids(hs)) == PoolSolids(next)
    ensures FixedSolids(ps) <= PoolSolids(next) <= PoolSolids(ps)
    ensures 0.0 <= Sum(AshOf(ps)) <= PoolSolids(next)
  {
    forall i | 0 <= i < |ps|
      ensures PoolWellFormed(next[i])
      ensures FixedSolidsOf(ps)[i] <= HourSolids(hs)[i] <= PoolSolidsOf(ps)[i]
      ensures AshOf(ps)[i] <= HourSolids(hs)[i]
    {
    }
    assert FixedSolidsOf(next) == FixedSolidsOf(ps);
    assert AshOf(next) == AshOf(ps);
    SumEq(HourSolids(hs), PoolSolidsOf(next));
    SumLe(FixedSolidsOf(ps), HourSolids(hs));
    SumLe(HourSolids(hs), PoolSolidsOf(ps));
    SumLe(AshOf(ps), HourSolids(hs));
    SumNonNegative(AshOf(ps));
  }

  function Co2Of(h: SubstrateHour): real { h.co2 }
  function O2Of(h: SubstrateHour): real { h.o2 }
  function Nh3Of(h: SubstrateHour): real { h.nh3 }
  function WaterOf(h: SubstrateHour): real { h.water }
  function DegradedOf(h: SubstrateHour): real { h.degraded }

  /** What the decay of all pools during one hour yields: the moisture
      inhibition used, every substrate's hour, the pools after it, and the
      totals over substrates. */
  datatype Biology = Biology(
    f1: real,
    hs: seq<SubstrateHour>,
    next: seq<Pools>,
    solids: real,
    degraded: real,
    co2: real,
    o2: real,
    nh3: real,
    produced: real,
    ash: real)

  /** The contract of Degrade. */
  predicate DegradeFacts(st: State, b: Biology)
  {
    && 0.0 < b.f1 < 1.0
    && |b.hs| == |b.next| == |st.pools|
    && AllWellFormed(b.next)
    && FixedSolidsOf(b.next) == FixedSolidsOf(st.pools)
    && b.solids == PoolSolids(b.next)
    && b.solids + b.degraded == PoolSolids(st.pools)
    && FixedSolids(st.pools) <= b.solids <= PoolSolids(st.pools)
    && 0.0 <= b.ash <= b.solids
  }

  /** Where the hour's decay comes from: moisture and aeration inhibition from
      the start-of-hour percentages, and every substrate's rates corrected at
      the start-of-hour temperature. */
  predicate DegradeOrigin(fns: Functions, plant: Plant, st: State, b: Biology)
    requires Valid(fns)
    requires Fits(plant, st)
  {
    && b.f1 == MoistureInhibition(fns, st.fs)
    && b.hs == DegradeAll(plant, st.pools, RateBracket(fns, st.temperature), b.f1,
                          AerationInhibition(fns, st.fs, st.fh, st.fvs))
    && b.next == Advance(st.pools, b.hs)
    && b.degraded == Sum(Column(b.hs, DegradedOf))
    && b.co2 == Sum(Column(b.hs, Co2Of)) && b.o2 == Sum(Column(b.hs, O2Of))
    && b.nh3 == Sum(Column(b.hs, Nh3Of)) && b.produced == Sum(Column(b.hs, WaterOf))
    && b.ash == Sum(AshOf(st.pools))
  }

  /** Decays every substrate's pools for an hour at the start-of-hour
      temperature and fractions. The pools stay well formed, ash and
      non-biodegradable matter are untouched, the solids fall by exactly the
      degraded mass and stay above the part that does not decay. */
  function Degrade(fns: Functions, plant: Plant, st: State): (b: Biology)
    requires Valid(fns)
    requires Fits(plant, st)
    ensures DegradeFacts(st, b)
    ensures DegradeOrigin(fns, plant, st, b)
  {
    var ps := st.pools;
    var f1 := MoistureInhibition(fns, st.fs);
    var f2 := AerationInhibition(fns, st.fs, st.fh, st.fvs);
    var bracket := RateBracket(fns, st.temperature);
    var hs := DegradeAll(plant, ps, bracket, f1, f2);
    var next := Advance(ps, hs);
    AdvanceFacts(ps, hs, next, plant, bracket, f1, f2);
    DegradedIsSolidsLost(ps, hs, plant, bracket, f1, f2);
    Biology(f1, hs, next, Sum(HourSolids(hs)), Sum(Column(hs, DegradedOf)),
            Sum(Column(hs, Co2Of)), Sum(Column(hs, O2Of)), Sum(Column(hs, Nh3Of)),
            Sum(Column(hs, WaterOf)), Sum(AshOf(ps)))
  }

  /** Every substrate loses exactly the mass counted as degraded. */
  lemma DegradedIsSolidsLost(ps: seq<Pools>, hs: seq<SubstrateHour>,
                             plant: Plant, bracket: real, f1: real, f2: real)
    requires |plant.compositions| == |plant.substrates| == |ps|
    requires 0.0 < f1 < 1.0 && 0.0 < f2 < 1.0
    requires hs == DegradeAll(plant, ps, bracket, f1, f2)
    ensures Sum(HourSolids(hs)) + Sum(Column(hs, DegradedOf)) == PoolSolids(ps)
  {
    SumAdd(HourSolids(hs), Column(hs, DegradedOf), PoolSolidsOf(ps));
  }

  /** When every substrate has a positive formula mass, the hour's CO2, NH3 and
      water less the O2 consumed weigh exactly what was degraded. */
  lemma {:induction false} MixtureProductsBalance(fns: Functions, plant: Plant, st: State)
    requires Valid(fns)
    requires Fits(plant, st)
    requires forall i :: 0 <= i < |plant.compositions| ==> FormulaMass(plant.compositions[i]) > 0.0
    ensures var b := Degrade(fns, plant, st); b.co2 + b.nh3 + b.produced - b.o2 == b.degraded
  {
    var f1 := MoistureInhibition(fns, st.fs);
    var f2 := AerationInhibition(fns, st.fs, st.fh, st.fvs);
    var hs := DegradeAll(plant, st.pools, RateBracket(fns, st.temperature), f1, f2);
    var co2, o2, nh3 := Column(hs, Co2Of), Column(hs, O2Of), Column(hs, Nh3Of);
    var water, degraded := Column(hs, WaterOf), Column(hs, DegradedOf);
    var carbonNitrogen := seq(|hs|, i requires 0 <= i < |hs| => co2[i] + nh3[i]);
    var products := seq(|hs|, i requires 0 <= i < |hs| => carbonNitrogen[i] + water[i]);
    SumAdd(co2, nh3, carbonNitrogen);
    SumAdd(carbonNitrogen, water, products);
    SumAdd(degraded, o2, products);
  }

  /** PV: the vapour pressure of the ambient air, its saturation pressure
      scaled by the relative humidity. */
  function IncomingVapourPressure(fns: Functions, ambientTemp: real, ambientRH: real): real
  {
    fns.saturationPressure(ambientTemp) * ambientRH / 100.0
  }

  /** The air side of the hour: vapour pressures in and out, barometric
      pressure, and the dry air and vapour the incoming air brings. */
  datatype AirSide = AirSide(pv: real, p: real, dryAirIn: real, vapourIn: real, pvso: real, pvo: real)

  /** The contract of Air. */
  predicate AirSideFacts(plant: Plant, q: real, a: AirSide)
  {
    && a.p == SeaLevelPressure
    && a.pvso > 0.0 && a.pvo <= a.pvso
    && (plant.ambientRH >= 0.0 ==> a.pv >= 0.0 && a.pvo >= 0.0)
    && (q <= 0.0 ==> a.dryAirIn == 0.0 && a.vapourIn == 0.0)
  }

  /** Where the air side comes from: PV from the ambient saturation pressure
      and humidity, PVSO the saturation pressure at `temperature`, PVO pulled
      from PV toward PVSO by f1, and the incoming dry air and vapour the
      ideal-gas masses of q at the ambient temperature and sea-level pressure. */
  predicate AirOrigin(fns: Functions, plant: Plant, q: real, temperature: real, f1: real, a: AirSide)
    requires Kelvin(plant.ambientTemp) != 0.0
    requires 0.0 < f1 < 1.0
  {
    && a.pv == IncomingVapourPressure(fns, plant.ambientTemp, plant.ambientRH)
    && a.pvso == fns.saturationPressure(temperature)
    && a.pvo == OutgoingVapourPressure(a.pv, a.pvso, f1)
    && a.dryAirIn == IncomingAir(q, plant.ambientTemp, SeaLevelPressure, a.pv).dryAir
    && a.vapourIn == IncomingAir(q, plant.ambientTemp, SeaLevelPressure, a.pv).vapour
  }

  /** The air side at process temperature `temperature`: the incoming vapour
      pressure from the ambient saturation pressure and humidity, the
      saturation pressure of the outgoing air at the process temperature, and
      the outgoing vapour pressure pulled toward it by f1. The outgoing vapour
      pressure never exceeds saturation, is non-negative for a non-negative
      ambient humidity, and no airflow brings no air. */
  function Air(fns: Functions, plant: Plant, q: real, temperature: real, f1: real): (a: AirSide)
    requires Valid(fns)
    requires Kelvin(plant.ambientTemp) != 0.0
    requires 0.0 < f1 < 1.0
    ensures AirSideFacts(plant, q, a)
    ensures AirOrigin(fns, plant, q, temperature, f1, a)
  {
    var pvs := fns.saturationPressure(plant.ambientTemp);
    var pv := IncomingVapourPressure(fns, plant.ambientTemp, plant.ambientRH);
    var p := Pressure(fns, plant.ambientTemp);
    var incoming := IncomingAir(q, plant.ambientTemp, p, pv);
    var pvso := fns.saturationPressure(temperature);
    var pvo := OutgoingVapourPressure(pv, pvso, f1);
    assert plant.ambientRH >= 0.0 ==> pv >= 0.0 by {
      if plant.ambientRH >= 0.0 {
        NonNegativeProduct(pvs, plant.ambientRH);
      }
    }
    AirSide(pv, p, incoming.dryAir, incoming.vapour, pvso, pvo)
  }

  /** What a completed hour satisfies, for hour t with airflow q from state st.
      The row reports the state after the hour; decay keeps the pools well
      formed, ash and non-biodegradable matter fixed, and the solids between
      that fixed part and their previous value; moisture closes its balance
      unless clamped at 0 and the percentages stay in range; relative humidity
      is at most 100 and, for a non-negative ambient humidity, at least 0; the
      exhaust mass is the dry air plus CO2 and NH3 less O2, and its volume
      follows the ideal-gas law at the updated temperature; without airflow
      the air carries nothing in or out and the heat-loss coefficient is 9; the
      temperature moves in the direction of the available heat. */
  predicate HourFacts(plant: Plant, t: nat, q: real, st: State, h: Hour)
  {
    && h.row.hour == t + 1
    && h.row.temperature == h.next.temperature
    && h.row.moisture == h.next.moisture
    && h.row.moistureFraction == h.next.fh
    && h.row.solids == PoolSolids(h.next.pools)
    && Fits(plant, h.next)
    && FixedSolidsOf(h.next.pools) == FixedSolidsOf(st.pools)
    && FixedSolids(st.pools) <= h.row.solids <= PoolSolids(st.pools)
    && MoistureFacts(plant, st, h)
    && AirFacts(plant, q, h)
    && ThermalFacts(st, h)
  }

  predicate MoistureFacts(plant: Plant, st: State, h: Hour)
  {
    var e := h.exchange;
    var balance := st.moisture + e.waterProduced + plant.waterFlow + e.vapourIn - e.vapourOut;
    && (balance >= 0.0 ==> h.next.moisture == balance)
    && (balance < 0.0 ==> h.next.moisture == 0.0)
    && h.next.moisture >= 0.0
    && 0.0 <= h.next.fh <= 100.0 && 0.0 <= h.next.fs <= 100.0
    && (h.next.moisture + h.row.solids > 0.0 ==> h.next.fh + h.next.fs == 100.0)
  }

  predicate AirFacts(plant: Plant, q: real, h: Hour)
  {
    var e := h.exchange;
    && h.row.relativeHumidity <= 100.0
    && (plant.ambientRH >= 0.0 ==> h.row.relativeHumidity >= 0.0)
    && h.row.exhaustMass == e.dryAirIn + e.co2 + e.nh3 - e.o2
    && (e.vapourPressureOut >= SeaLevelPressure ==> h.row.exhaustVolume == 0.0)
    && (e.vapourPressureOut < SeaLevelPressure ==>
          h.row.exhaustVolume * (SeaLevelPressure - e.vapourPressureOut)
            == GasConstant * Kelvin(h.next.temperature) * NetMoles(e.dryAirIn, e.co2, e.nh3, e.o2))
    && e.lossCoefficient >= 9.0
    && (q <= 0.0 ==>
          e.dryAirIn == 0.0 && e.vapourIn == 0.0 && e.vapourOut == 0.0 && e.lossCoefficient == 9.0)
  }

  predicate ThermalFacts(st: State, h: Hour)
  {
    var available := h.energy.generated - h.energy.evaporation - h.energy.loss;
    && (h.energy.capacity > 0.0 ==> (h.next.temperature > st.temperature <==> available > 0.0))
    && (h.energy.capacity > 0.0 ==> (h.next.temperature == st.temperature <==> available == 0.0))
    && (h.energy.capacity <= 0.0 ==> h.next.temperature == st.temperature)
  }

  /** Runs hour t with airflow q. It fails exactly when the fan runs while the
      process is at -273 degC; otherwise the hour satisfies HourFacts,
      StartOfHour and HourFlows, which together leave no other hour possible
      (HourDetermined). */
  function Step(fns: Functions, plant: Plant, t: nat, q: real, st: State): (r: Result<Hour>)
    requires Valid(fns)
    requires Fits(plant, st)
    requires Kelvin(plant.ambientTemp) != 0.0
    ensures r.Failure? <==> q > 0.0 && Kelvin(st.temperature) == 0.0
    ensures r.Failure? ==> r.error == ProcessAtAbsoluteZero(t)
    ensures r.Success? ==> HourFacts(plant, t, q, st, r.value)
    ensures r.Success? ==> StartOfHour(fns, plant, t, q, st, r.value)
    ensures r.Success? ==> HourFlows(fns, plant, q, st, r.value)
  {
    var b := Degrade(fns, plant, st);
    var a := Air(fns, plant, q, st.temperature, b.f1);
    match OutgoingVapour(q, st.temperature, a.pvo)
    case None => Failure(ProcessAtAbsoluteZero(t))
    case Some(vout) => Success(Finish(fns, plant, t, q, st, b, a, vout))
  }

  /** The rest of an hour once the biology, the air side and the outgoing
      vapour flow are known: the balances, then the assembled hour. */
  function Finish(fns: Functions, plant: Plant, t: nat, q: real, st: State, b: Biology, a: AirSide, vout: real)
    : (h: Hour)
    requires Valid(fns)
    requires Fits(plant, st)
    requires Kelvin(plant.ambientTemp) != 0.0
    requires DegradeFacts(st, b) && DegradeOrigin(fns, plant, st, b)
    requires AirSideFacts(plant, q, a) && AirOrigin(fns, plant, q, st.temperature, b.f1, a)
    requires OutgoingVapour(q, st.temperature, a.pvo) == Some(vout)
    ensures HourFacts(plant, t, q, st, h)
    ensures StartOfHour(fns, plant, t, q, st, h)
    ensures HourFlows(fns, plant, q, st, h)
  {
    var o := Balances(plant, t, q, st, b, a, vout);
    var h := Complete(plant, t, q, st, b, a, vout, o);
    StartOfHourHolds(fns, plant, t, q, st, b, a, vout, o, h);
    HourFlowsHold(fns, plant, t, q, st, b, a, vout, o, h);
    h
  }

  /** The stages' own statements of their inputs add up to StartOfHour. */
  lemma StartOfHourHolds(fns: Functions, plant: Plant, t: nat, q: real, st: State,
                         b: Biology, a: AirSide, vout: real, o: Outcome, h: Hour)
    requires Valid(fns)
    requires Fits(plant, st)
    requires Kelvin(plant.ambientTemp) != 0.0
    requires DegradeFacts(st, b) && DegradeOrigin(fns, plant, st, b)
    requires AirOrigin(fns, plant, q, st.temperature, b.f1, a) && a.pvso > 0.0
    requires BalanceOrigin(plant, t, q, st, b, a, vout, o)
    requires Assembled(q, b, a, vout, o, h)
    ensures StartOfHour(fns, plant, t, q, st, h)
  {
  }

  /** What an hour computes from the state it starts in: the pools decay at
      rates corrected at the start-of-hour temperature and inhibited by the
      start-of-hour percentages; the outgoing vapour pressure uses the
      saturation pressure at the start-of-hour temperature; heat generation
      (at the new moisture percentage), evaporation and heat loss use the
      start-of-hour temperature; and the new temperature is the filtered
      change from the start-of-hour one. */
  predicate StartOfHour(fns: Functions, plant: Plant, t: nat, q: real, st: State, h: Hour)
    requires Valid(fns)
    requires Fits(plant, st)
  {
    var f1 := MoistureInhibition(fns, st.fs);
    var f2 := AerationInhibition(fns, st.fs, st.fh, st.fvs);
    var pv := IncomingVapourPressure(fns, plant.ambientTemp, plant.ambientRH);
    var degraded := PoolSolids(st.pools) - h.row.solids;
    var e := h.energy;
    && h.next.pools == Advance(st.pools, DegradeAll(plant, st.pools, RateBracket(fns, st.temperature), f1, f2))
    && h.exchange.vapourPressureOut == OutgoingVapourPressure(pv, fns.saturationPressure(st.temperature), f1)
    && e.generated == HeatReleased(plant.hbvs, degraded, HeatFactor(t, plant.hrt, st.temperature, h.next.fh))
    && e.evaporation == EvaporationHeat(h.exchange.vapourOut, h.exchange.vapourIn, st.temperature)
    && e.loss == HeatLoss(q, st.temperature, plant.ambientTemp)
    && h.next.temperature == NextTemperature(st.temperature, e.generated - e.evaporation - e.loss, e.capacity)
  }

  /** What the rest of an hour is computed from: the gases and the water
      produced are the column sums of the substrates' decay at the start-of-hour
      temperature and percentages; the dry air and vapour coming in follow the
      ideal-gas law at the ambient temperature, and the vapour going out at the
      start-of-hour temperature; the loss coefficient is set by the airflow; the
      moisture and solids percentages are shares of the new wet mass and the
      volatile percentage a share of the new solids; the heat capacity is that
      of the decayed solids, the new moisture and the exhaust gas; and the
      relative humidity is the outgoing vapour pressure over saturation at the
      start-of-hour temperature. */
  predicate HourFlows(fns: Functions, plant: Plant, q: real, st: State, h: Hour)
    requires Valid(fns)
    requires Fits(plant, st)
    requires Kelvin(plant.ambientTemp) != 0.0
  {
    var hs := DegradeAll(plant, st.pools, RateBracket(fns, st.temperature), MoistureInhibition(fns, st.fs),
                         AerationInhibition(fns, st.fs, st.fh, st.fvs));
    var air := IncomingAir(q, plant.ambientTemp, SeaLevelPressure,
                           IncomingVapourPressure(fns, plant.ambientTemp, plant.ambientRH));
    var e := h.exchange;
    var fr := WetFractions(h.row.solids, h.next.moisture);
    && e.co2 == Sum(Column(hs, Co2Of)) && e.o2 == Sum(Column(hs, O2Of))
    && e.nh3 == Sum(Column(hs, Nh3Of)) && e.waterProduced == Sum(Column(hs, WaterOf))
    && e.dryAirIn == air.dryAir && e.vapourIn == air.vapour
    && OutgoingVapour(q, st.temperature, e.vapourPressureOut) == Some(e.vapourOut)
    && e.lossCoefficient == LossCoefficient(q)
    && h.next.fh == fr.moisture && h.next.fs == fr.solids
    && h.next.fvs == VolatileFraction(h.row.solids, Sum(AshOf(st.pools)))
    && h.energy.capacity == HeatCapacity(hs, plant.cp, h.next.moisture, h.row.exhaustMass)
    && h.row.relativeHumidity == RelativeHumidity(e.vapourPressureOut, fns.saturationPressure(st.temperature))
  }

  /** The stages' statements of their flows add up to HourFlows. */
  lemma HourFlowsHold(fns: Functions, plant: Plant, t: nat, q: real, st: State,
                      b: Biology, a: AirSide, vout: real, o: Outcome, h: Hour)
    requires Valid(fns)
    requires Fits(plant, st)
    requires Kelvin(plant.ambientTemp) != 0.0
    requires DegradeFacts(st, b) && DegradeOrigin(fns, plant, st, b)
    requires AirOrigin(fns, plant, q, st.temperature, b.f1, a) && a.pvso > 0.0
    requires OutgoingVapour(q, st.temperature, a.pvo) == Some(vout)
    requires BalanceOrigin(plant, t, q, st, b, a, vout, o)
    requires Assembled(q, b, a, vout, o, h)
    ensures HourFlows(fns, plant, q, st, h)
  {
  }

  /** Heat taken up by evaporation (kJ/h): the net vapour leaving, at the latent
      heat of the given temperature. */
  function EvaporationHeat(vapourOut: real, vapourIn: real, temperature: real): real
  {
    (vapourOut - vapourIn) * LatentHeat(temperature)
  }

  /** Heat released by degradation (kJ/h): hbvs per kg degraded, scaled by the
      heat factor. */
  function HeatReleased(hbvs: real, degraded: real, factor: real): real
  {
    hbvs * degraded * factor
  }

  /** The moisture, fractions and energy of an hour, and the temperature after it. */
  datatype Outcome = Outcome(moisture: real, fractions: Fractions, fvs: real, energy: Energy, temperature: real)

  /** The contract of Balances: moisture closes its balance unless clamped at 0,
      the percentages stay in range, and the temperature moves in the direction
      of the available heat, or not at all without heat capacity. */
  predicate OutcomeFacts(plant: Plant, st: State, b: Biology, a: AirSide, vout: real, o: Outcome)
  {
    var balance := st.moisture + b.produced + plant.waterFlow + a.vapourIn - vout;
    var available := o.energy.generated - o.energy.evaporation - o.energy.loss;
    && (balance >= 0.0 ==> o.moisture == balance)
    && (balance < 0.0 ==> o.moisture == 0.0)
    && o.moisture >= 0.0
    && 0.0 <= o.fractions.moisture <= 100.0 && 0.0 <= o.fractions.solids <= 100.0
    && (o.moisture + b.solids > 0.0 ==> o.fractions.moisture + o.fractions.solids == 100.0)
    && 0.0 <= o.fvs <= 100.0
    && (o.energy.capacity > 0.0 ==> (o.temperature > st.temperature <==> available > 0.0))
    && (o.energy.capacity > 0.0 ==> (o.temperature == st.temperature <==> available == 0.0))
    && (o.energy.capacity <= 0.0 ==> o.temperature == st.temperature)
  }

  /** Where the balances come from: heat generation at the start-of-hour
      temperature and the new moisture percentage, evaporation and heat loss
      at the start-of-hour temperature, the new temperature the filtered change
      from the start-of-hour one, the percentages shares of the new wet mass and
      solids, and the heat capacity that of the decayed solids, the new
      moisture and the exhaust gas. */
  predicate BalanceOrigin(plant: Plant, t: nat, q: real, st: State, b: Biology, a: AirSide, vout: real, o: Outcome)
    requires Fits(plant, st)
    requires DegradeFacts(st, b)
  {
    && o.energy.generated == HeatReleased(plant.hbvs, b.degraded, HeatFactor(t, plant.hrt, st.temperature, o.fractions.moisture))
    && o.energy.evaporation == EvaporationHeat(vout, a.vapourIn, st.temperature)
    && o.energy.loss == HeatLoss(q, st.temperature, plant.ambientTemp)
    && o.temperature ==
         NextTemperature(st.temperature, o.energy.generated - o.energy.evaporation - o.energy.loss, o.energy.capacity)
    && o.fractions == WetFractions(b.solids, o.moisture)
    && o.fvs == VolatileFraction(b.solids, b.ash)
    && o.energy.capacity == HeatCapacity(b.hs, plant.cp, o.moisture, a.dryAirIn + b.co2 + b.nh3 - b.o2)
  }

  /** The moisture and energy balances of an hour once the outgoing vapour flow
      is known. Heat generation, heat loss and evaporation use the start-of-hour
      temperature; the heat factor uses the new moisture percentage. */
  function Balances(plant: Plant, t: nat, q: real, st: State, b: Biology, a: AirSide, vout: real)
    : (o: Outcome)
    requires Fits(plant, st)
    requires DegradeFacts(st, b)
    ensures OutcomeFacts(plant, st, b, a, vout, o)
    ensures BalanceOrigin(plant, t, q, st, b, a, vout, o)
  {
    var tp := st.temperature;
    var exhaust := a.dryAirIn + b.co2 + b.nh3 - b.o2;
    var moisture := MoistureBalance(st.moisture, b.produced, plant.waterFlow, a.vapourIn, vout);
    var fr := WetFractions(b.solids, moisture);
    var generated := HeatReleased(plant.hbvs, b.degraded, HeatFactor(t, plant.hrt, tp, fr.moisture));
    var evaporation := EvaporationHeat(vout, a.vapourIn, tp);
    var loss := HeatLoss(q, tp, plant.ambientTemp);
    var capacity := HeatCapacity(b.hs, plant.cp, moisture, exhaust);
    Outcome(moisture, fr, VolatileFraction(b.solids, b.ash), Energy(generated, evaporation, loss, capacity),
            NextTemperature(tp, generated - evaporation - loss, capacity))
  }

  /** How the hour is assembled from its stages: the new state from the
      balances and the decayed pools, the exchanged flows from the biology and
      the air side, the row's solids, exhaust mass and relative humidity. */
  predicate Assembled(q: real, b: Biology, a: AirSide, vout: real, o: Outcome, h: Hour)
    requires a.pvso > 0.0
  {
    && h.next == State(o.temperature, o.moisture, o.fractions.solids, o.fractions.moisture, o.fvs, b.next)
    && h.exchange == Exchange(a.dryAirIn, a.vapourIn, vout, b.co2, b.o2, b.nh3, b.produced, a.pvo, LossCoefficient(q))
    && h.row.solids == b.solids && h.energy == o.energy
    && h.row.exhaustMass == a.dryAirIn + b.co2 + b.nh3 - b.o2
    && h.row.relativeHumidity == RelativeHumidity(a.pvo, a.pvso)
  }

  /** Assembles the hour: the new state, the row with relative humidity and the
      exhaust gas at the updated temperature, and the exchanged flows. */
  function Complete(plant: Plant, t: nat, q: real, st: State, b: Biology, a: AirSide, vout: real, o: Outcome)
    : (h: Hour)
    requires Fits(plant, st)
    requires DegradeFacts(st, b)
    requires AirSideFacts(plant, q, a)
    requires q <= 0.0 ==> vout == 0.0
    requires OutcomeFacts(plant, st, b, a, vout, o)
    ensures HourFacts(plant, t, q, st, h)
    ensures Assembled(q, b, a, vout, o, h)
  {
    var exhaust := a.dryAirIn + b.co2 + b.nh3 - b.o2;
    var volume := ExhaustVolume(a, b, o.temperature);
    Hour(
      State(o.temperature, o.moisture, o.fractions.solids, o.fractions.moisture, o.fvs, b.next),
      Row(t + 1, o.temperature, o.moisture, o.fractions.moisture, exhaust, volume,
          RelativeHumidity(a.pvo, a.pvso), b.solids),
      Exchange(a.dryAirIn, a.vapourIn, vout, b.co2, b.o2, b.nh3, b.produced, a.pvo, LossCoefficient(q)),
      o.energy)
  }

  /** The hour's exhaust-gas volume at sea-level pressure: 0 when the outgoing
      vapour pressure reaches it, otherwise the ideal-gas volume of the net
      moles at the new temperature and the dry-gas partial pressure. */
  function ExhaustVolume(a: AirSide, b: Biology, tnew: real): (v: real)
    requires a.p == SeaLevelPressure
    ensures a.pvo >= SeaLevelPressure ==> v == 0.0
    ensures a.pvo < SeaLevelPressure ==>
      v * (SeaLevelPressure - a.pvo) == GasConstant * Kelvin(tnew) * NetMoles(a.dryAirIn, b.co2, b.nh3, b.o2)
  {
    var n := NetMoles(a.dryAirIn, b.co2, b.nh3, b.o2);
    var v := GasVolume(a.p, a.pvo, tnew, a.dryAirIn, b.co2, b.nh3, b.o2);
    SeaLevelVolume(v, a.p, a.pvo, GasConstant * Kelvin(tnew), n);
    v
  }

  lemma SeaLevelVolume(v: real, p: real, pvo: real, rt: real, moles: real)
    requires p == SeaLevelPressure
    requires p > pvo ==> v * (p - pvo) == rt * moles
    ensures pvo < SeaLevelPressure ==> v * (SeaLevelPressure - pvo) == rt * moles
  {
  }

  /** For any hour Step completes (HourFacts bounds its solids by those it
      started with): the mass degraded is never negative, and the heat
      released lies between 0.018 and 1.5 times HBVS times it. */
  lemma HourHeatBounds(fns: Functions, plant: Plant, t: nat, q: real, st: State, h: Hour)
    requires Valid(fns)
    requires Fits(plant, st)
    requires plant.hbvs >= 0.0
    requires StartOfHour(fns, plant, t, q, st, h)
    requires h.row.solids <= PoolSolids(st.pools)
    ensures var degraded := PoolSolids(st.pools) - h.row.solids;
      && degraded >= 0.0
      && HeatReleased(plant.hbvs, degraded, 0.018) <= h.energy.generated <= HeatReleased(plant.hbvs, degraded, 1.5)
  {
    var degraded := PoolSolids(st.pools) - h.row.solids;
    ReleasedBounds(plant.hbvs, degraded, HeatFactor(t, plant.hrt, st.temperature, h.next.fh));
  }

  /** For any hour Step completes: heat is lost exactly when the process starts
      the hour warmer than the ambient air, gained exactly when it starts
      colder, and at a rate of at least 9 kJ/h per degree of difference. */
  lemma HourLossSign(fns: Functions, plant: Plant, t: nat, q: real, st: State, h: Hour)
    requires Valid(fns)
    requires Fits(plant, st)
    requires HourFacts(plant, t, q, st, h) && StartOfHour(fns, plant, t, q, st, h)
    ensures h.energy.loss > 0.0 <==> st.temperature > plant.ambientTemp
    ensures h.energy.loss < 0.0 <==> st.temperature < plant.ambientTemp
    ensures Abs(h.energy.loss) >= 9.0 * Abs(st.temperature - plant.ambientTemp)
  {
  }

  /** An hour is fixed by the state it starts from: two hours from the same
      state, hour and airflow that both satisfy HourFacts, StartOfHour and
      HourFlows are the same hour. */
  lemma HourDetermined(fns: Functions, plant: Plant, t: nat, q: real, st: State, h1: Hour, h2: Hour)
    requires Valid(fns)
    requires Fits(plant, st)
    requires Kelvin(plant.ambientTemp) != 0.0
    requires HourFacts(plant, t, q, st, h1) && StartOfHour(fns, plant, t, q, st, h1) && HourFlows(fns, plant, q, st, h1)
    requires HourFacts(plant, t, q, st, h2) && StartOfHour(fns, plant, t, q, st, h2) && HourFlows(fns, plant, q, st, h2)
    ensures h1 == h2
  {
    assert h1.exchange == h2.exchange;
    assert h1.next.pools == h2.next.pools && h1.row.solids == h2.row.solids;
    assert h1.next.moisture == h2.next.moisture;
    assert h1.row.exhaustMass == h2.row.exhaustMass;
    assert h1.energy == h2.energy;
    assert h1.next == h2.next;
    ExhaustVolumeDetermined(plant, q, h1, h2);
  }

  /** The exhaust volume is fixed by the exchanged flows and the new temperature. */
  lemma ExhaustVolumeDetermined(plant: Plant, q: real, h1: Hour, h2: Hour)
    requires AirFacts(plant, q, h1) && AirFacts(plant, q, h2)
    requires h1.exchange == h2.exchange && h1.next.temperature == h2.next.temperature
    ensures h1.row.exhaustVolume == h2.row.exhaustVolume
  {
    var e := h1.exchange;
    if e.vapourPressureOut < SeaLevelPressure {
      var rtn := GasConstant * Kelvin(h1.next.temperature) * NetMoles(e.dryAirIn, e.co2, e.nh3, e.o2);
      assert h1.row.exhaustVolume * (SeaLevelPressure - e.vapourPressureOut) == rtn;
      assert h2.row.exhaustVolume * (SeaLevelPressure - e.vapourPressureOut) == rtn;
      CancelFactor(h1.row.exhaustVolume, h2.row.exhaustVolume, SeaLevelPressure - e.vapourPressureOut);
    }
  }

  lemma CancelFactor(x: real, y: real, c: real)
    requires c != 0.0 && x * c == y * c
    ensures x == y
  {
    assert (x - y) * c == 0.0;
  }

  /** Heat release grows with the heat factor. */
  lemma ReleasedBounds(hbvs: real, degraded: real, factor: real)
    requires hbvs >= 0.0 && degraded >= 0.0 && 0.3 * 0.2 * 0.3 <= factor <= 1.5
    ensures HeatReleased(hbvs, degraded, 0.018) <= HeatReleased(hbvs, degraded, factor)
    ensures HeatReleased(hbvs, degraded, factor) <= HeatReleased(hbvs, degraded, 1.5)
  {
    var m := hbvs * degraded;
    NonNegativeProduct(hbvs, degraded);
    ProductRange(m, m, m, factor, 0.018, 1.5);
  }

  /** An hour without airflow always completes: no air or vapour passes, the
      heat-loss coefficient stays 9, and the exhaust is CO2 and NH3 less the O2
      consumed, which is not zeroed. */
  lemma NoAirflowHour(fns: Functions, plant: Plant, t: nat, q: real, st: State)
    requires Valid(fns)
    requires Fits(plant, st)
    requires Kelvin(plant.ambientTemp) != 0.0
    requires q <= 0.0
    ensures Step(fns, plant, t, q, st).Success?
    ensures var e := Step(fns, plant, t, q, st).value.exchange;
      && e.dryAirIn == 0.0 && e.vapourIn == 0.0 && e.vapourOut == 0.0 && e.lossCoefficient == 9.0
      && Step(fns, plant, t, q, st).value.row.exhaustMass == e.co2 + e.nh3 - e.o2
  {
  }
}

=== FILE: hrt.dfy ===
/** Normalisation of the hydraulic retention time (the number of hourly steps),
    modelvic.py lines 45-60. A text value keeps only its decimal digits, a number
    is truncated toward zero, and anything that does not give a positive count
    falls back to 1080 hours. */
module Hrt {

  /** The HRT parameter as the configuration supplies it. */
  datatype HrtInput =
    | HrtMissing
    | HrtText(text: string)
    | HrtNumber(value: real)

  const DefaultHrt: nat := 1080

  predicate IsDigit(c: char)
  {
    '0' <= c <= '9'
  }

  predicate AllDigits(s: string)
  {
    forall i :: 0 <= i < |s| ==> IsDigit(s[i])
  }

  /** The digit characters of s, in order. */
  function KeepDigits(s: string): (d: string)
    ensures AllDigits(d)
    ensures |d| <= |s|
    ensures AllDigits(s) ==> d == s
    decreases |s|
  {
    if |s| == 0 then ""
    else if IsDigit(s[|s| - 1]) then KeepDigits(s[..|s| - 1]) + [s[|s| - 1]]
    else KeepDigits(s[..|s| - 1])
  }

  function DigitValue(c: char): nat
    requires IsDigit(c)
  {
    (c - '0') as nat
  }

  /** The number a string of decimal digits denotes. */
  function DigitsValue(d: string): nat
    requires AllDigits(d)
    decreases |d|
  {
    if |d| == 0 then 0 else DigitsValue(d[..|d| - 1]) * 10 + DigitValue(d[|d| - 1])
  }

  /** Python's int() of a float: the integer part, rounding toward zero. */
  function TruncateTowardZero(x: real): (n: int)
    ensures x >= 0.0 ==> 0.0 <= n as real <= x < n as real + 1.0
    ensures x < 0.0 ==> n as real - 1.0 < x <= n as real <= 0.0
  {
    if x >= 0.0 then x.Floor else -((-x).Floor)
  }

  /** The number of hourly steps. A missing value gives 1080; a number of at
      least 1 gives its integer part and any smaller number 1080; a text made of
      digits gives the count it spells unless that is 0. */
  function ParseHrt(v: HrtInput): (hours: nat)
    ensures hours >= 1
    ensures v.HrtMissing? ==> hours == DefaultHrt
    ensures v.HrtNumber? ==> hours == if v.value >= 1.0 then v.value.Floor else DefaultHrt
    ensures v.HrtText? && AllDigits(v.text) && DigitsValue(v.text) >= 1 ==> hours == DigitsValue(v.text)
    ensures v.HrtText? && AllDigits(v.text) && DigitsValue(v.text) == 0 ==> hours == DefaultHrt
  {
    match v
    case HrtMissing => DefaultHrt
    case HrtText(s) =>
      var d := KeepDigits(s);
      if |d| == 0 || DigitsValue(d) == 0 then DefaultHrt else DigitsValue(d)
    case HrtNumber(x) =>
      var n := TruncateTowardZero(x);
      if n <= 0 then DefaultHrt else n
  }

  /** The decimal numeral of n, without leading zeros. */
  function Decimal(n: nat): (s: string)
    ensures AllDigits(s) && |s| >= 1
    decreases n
  {
    if n < 10 then ['0' + n as char] else Decimal(n / 10) + ['0' + (n % 10) as char]
  }

  lemma {:induction false} DecimalValue(n: nat)
    ensures DigitsValue(Decimal(n)) == n
    decreases n
  {
    if n >= 10 {
      DecimalValue(n / 10);
      var s := Decimal(n);
      assert s[..|s| - 1] == Decimal(n / 10);
    }
  }

  /** A positive count written as a decimal numeral parses back to itself. */
  lemma HrtTextRoundTrip(n: nat)
    requires n >= 1
    ensures ParseHrt(HrtText(Decimal(n))) == n
  {
    DecimalValue(n);
  }

  /** A positive whole number of hours is taken as it is. */
  lemma HrtNumberRoundTrip(n: nat)
    requires n >= 1
    ensures ParseHrt(HrtNumber(n as real)) == n
  {
  }

  lemma {:induction false} KeepDigitsAppend(a: string, b: string)
    ensures KeepDigits(a + b) == KeepDigits(a) + KeepDigits(b)
    decreases |b|
  {
    if |b| > 0 {
      var b' := b[..|b| - 1];
      assert (a + b)[..|a + b| - 1] == a + b';
      KeepDigitsAppend(a, b');
    } else {
      assert a + b == a;
    }
  }

  /** Characters other than digits (a decimal point, a sign, units) do not affect
      the parsed HRT: "1.5" reads as 15 and "-5" as 5. */
  lemma NonDigitIgnored(a: string, c: char, b: string)
    requires !IsDigit(c)
    ensures ParseHrt(HrtText(a + [c] + b)) == ParseHrt(HrtText(a + b))
  {
    KeepDigitsAppend(a + [c], b);
    KeepDigitsAppend(a, [c]);
    KeepDigitsAppend(a, b);
    assert KeepDigits([c]) == KeepDigits([]) by {
      assert [c][..0] == [];
    }
  }

  /** "1.5" keeps the digits 1 and 5: fifteen hours. */
  lemma DecimalPointDropped()
    ensures ParseHrt(HrtText("1.5")) == 15
  {
    NonDigitIgnored("1", '.', "5");
    assert "1" + ['.'] + "5" == "1.5" && "1" + "5" == "15";
    assert DigitsValue("15") == 15 by {
      assert "15"[..1] == "1";
      assert "1"[..0] == [];
    }
  }

  /** "-5" loses its sign: five hours. */
  lemma SignDropped()
    ensures ParseHrt(HrtText("-5")) == 5
  {
    assert KeepDigits("-5") == "5" by {
      assert "-5"[..1] == "-";
      assert "-"[..0] == [];
    }
    assert DigitsValue("5") == 5 by {
      assert "5"[..0] == [];
    }
  }

  /** A text without a single digit falls back to the default. */
  lemma NoDigitsDefault(s: string)
    requires forall i :: 0 <= i < |s| ==> !IsDigit(s[i])
    ensures ParseHrt(HrtText(s)) == DefaultHrt
  {
    NoDigitsKept(s);
  }

  lemma {:induction false} NoDigitsKept(s: string)
    requires forall i :: 0 <= i < |s| ==> !IsDigit(s[i])
    ensures KeepDigits(s) == ""
    decreases |s|
  {
    if |s| > 0 {
      NoDigitsKept(s[..|s| - 1]);
    }
  }

  /** A text without digits, or with only zeros, falls back to the default. */
  lemma TextFallbacks()
    ensures ParseHrt(HrtText("h")) == DefaultHrt
    ensures ParseHrt(HrtText("00")) == DefaultHrt
  {
    assert KeepDigits("h") == "" by {
      assert "h"[..0] == [];
    }
    assert DigitsValue("00") == 0 by {
      assert "00"[..1] == "0";
      assert "0"[..0] == [];
    }
  }

  /** Numbers are truncated toward zero; a non-positive result falls back. */
  lemma NumberExamples()
    ensures ParseHrt(HrtNumber(2.9)) == 2
    ensures ParseHrt(HrtNumber(-3.7)) == DefaultHrt
    ensures ParseHrt(HrtNumber(0.5)) == DefaultHrt
    ensures ParseHrt(HrtMissing) == DefaultHrt
  {
  }
}

=== FILE: kinetics.dfy ===
/** Degradation kinetics and stoichiometry of one hour (modelvic.py lines
    273-281, 300-335): inhibition factors, temperature-corrected rates, implicit
    first-order decay of the fast and slow pools, and the CO2, O2, NH3 and H2O
    masses the degraded solids turn into. */
module Kinetics {
  import opened Common
  import opened Config
  import opened Transcendental

  /** FO2: oxygen availability at 21 % oxygen in the supplied air. */
  const OxygenFactor: real := 21.0 / (21.0 + 2.0)

  /** Bulk densities of the substrate and of water (kg/m^3). */
  const SubstrateDensity: real := 1000.0
  const WaterDensity: real := 1000.0

  lemma LogisticRange(e: real)
    requires e > 0.0
    ensures 0.0 < 1.0 / (e + 1.0) < 1.0
  {
  }

  /** F1: moisture inhibition, a logistic function of the solids percentage. */
  function MoistureInhibition(fns: Functions, fs: real): (f1: real)
    requires Valid(fns)
    ensures 0.0 < f1 < 1.0
  {
    var e := fns.exp(-17.684 * (1.0 - fs / 100.0) + 7.0622);
    LogisticRange(e);
    1.0 / (e + 1.0)
  }

  /** Gm: particle density of the solids relative to water, from volatile
      solids of density 1 and ash of density 2.5. */
  function ParticleDensity(fvs: real): (gm: real)
    requires 0.0 <= fvs <= 100.0
    ensures 1.0 <= gm <= 2.5
  {
    var v := fvs / 100.0;
    var d := v / 1.0 + (1.0 - v) / 2.5;
    assert 0.4 <= d <= 1.0;
    1.0 / d
  }

  /** FAS: the free air space of the mixture. */
  function FreeAirSpace(fs: real, fh: real, fvs: real): real
    requires 0.0 <= fvs <= 100.0
  {
    var gm := ParticleDensity(fvs);
    1.0 - ((SubstrateDensity * fs / 100.0) / (gm * WaterDensity)
           - (SubstrateDensity * (fh / 100.0) / WaterDensity))
  }

  /** F2: aeration inhibition, a logistic function of the free air space. */
  function AerationInhibition(fns: Functions, fs: real, fh: real, fvs: real): (f2: real)
    requires Valid(fns)
    requires 0.0 <= fvs <= 100.0
    ensures 0.0 < f2 < 1.0
  {
    var e := fns.exp(-23.675 * FreeAirSpace(fs, fh, fvs) + 3.4945);
    LogisticRange(e);
    1.0 / (e + 1.0)
  }

  /** The temperature correction 1.066^(T-20) - 1.21^(T-60) of a 20 degC rate. */
  function RateBracket(fns: Functions, temperature: real): real
  {
    fns.pow(1.066, temperature - 20.0) - fns.pow(1.21, temperature - 60.0)
  }

  /** The rate at the process temperature, clamped at zero. */
  function CorrectedRate(rate20: real, bracket: real): (k: real)
    ensures k >= 0.0 && k >= rate20 * bracket
    ensures rate20 * bracket > 0.0 ==> k == rate20 * bracket
    ensures rate20 * bracket <= 0.0 ==> k == 0.0
  {
    Max(0.0, rate20 * bracket)
  }

  /** The rate after moisture, aeration and oxygen inhibition: never negative,
      zero exactly when the corrected rate is, and below it otherwise. */
  function EffectiveRate(rate20: real, bracket: real, f1: real, f2: real): (k: real)
    requires 0.0 < f1 < 1.0 && 0.0 < f2 < 1.0
    ensures k >= 0.0
    ensures k == 0.0 <==> rate20 * bracket <= 0.0
    ensures rate20 * bracket > 0.0 ==> k < rate20 * bracket
  {
    var kt := CorrectedRate(rate20, bracket);
    var k := kt * f1 * f2 * OxygenFactor;
    InhibitionShrinks(kt, f1, f2, k);
    BelowClamp(rate20 * bracket, kt, k);
    k
  }

  lemma BelowClamp(raw: real, kt: real, k: real)
    requires raw > 0.0 ==> kt == raw
    requires kt > 0.0 ==> k < kt
    ensures raw > 0.0 ==> k < raw
  {
  }

  lemma InhibitionShrinks(kt: real, f1: real, f2: real, k: real)
    requires kt >= 0.0 && 0.0 < f1 < 1.0 && 0.0 < f2 < 1.0
    requires k == kt * f1 * f2 * OxygenFactor
    ensures k >= 0.0
    ensures k == 0.0 <==> kt == 0.0
    ensures kt > 0.0 ==> k < kt
  {
    var g := f1 * f2;
    assert 0.0 < g < 1.0 by {
      assert f1 * f2 < 1.0 * f2;
    }
    var h := g * OxygenFactor;
    assert 0.0 < h < 1.0;
    assert k == kt * h;
    var rest := 1.0 - h;
    assert kt - k == kt * rest;
    if kt > 0.0 {
      assert kt * h > 0.0;
      assert kt * rest > 0.0;
    }
  }

  /** One hour of first-order decay at a daily rate k, discretised implicitly:
      the hour's loss is k/24 times the mass left at its end. */
  function Decay(pool: real, k: real): (out: real)
    requires k >= 0.0
    ensures pool - out == k / 24.0 * out
    ensures pool >= 0.0 ==> 0.0 <= out <= pool
    ensures k == 0.0 ==> out == pool
    ensures k > 0.0 && pool > 0.0 ==> out < pool
  {
    var d := 1.0 + k * (1.0 / 24.0);
    DecayFacts(pool, k, d);
    pool / d
  }

  lemma DecayFacts(pool: real, k: real, d: real)
    requires k >= 0.0 && d == 1.0 + k * (1.0 / 24.0)
    ensures pool - pool / d == k / 24.0 * (pool / d)
    ensures pool >= 0.0 ==> 0.0 <= pool / d <= pool
    ensures k > 0.0 && pool > 0.0 ==> pool / d < pool
  {
    var out := pool / d;
    assert out * d == pool;
    assert pool - out == out * d - out;
    if pool >= 0.0 {
      assert out * 1.0 <= out * d;
    }
    if k > 0.0 && pool > 0.0 {
      assert out * 1.0 < out * d;
    }
  }

  /** 12a + b + 16c + 14d: the formula mass of the substrate CaHbOcNd. */
  function FormulaMass(comp: Composition): real
  {
    comp.c * 12.0 + comp.h * 1.0 + comp.o * 16.0 + comp.n * 14.0
  }

  /** Mass of each species per unit mass of substrate degraded. */
  datatype Yields = Yields(co2: real, o2: real, nh3: real, h2o: real)

  /** Yields of CaHbOcNd + (4a+b-3d-2c)/4 O2 -> a CO2 + d NH3 + (b-3d)/2 H2O.
      A non-positive formula mass gives no products at all. */
  function StoichiometricYields(comp: Composition): (y: Yields)
    ensures FormulaMass(comp) <= 0.0 ==> y == Yields(0.0, 0.0, 0.0, 0.0)
    ensures FormulaMass(comp) > 0.0 ==> y.co2 + y.nh3 + y.h2o - y.o2 == 1.0
    ensures FormulaMass(comp) > 0.0 && comp.c >= 0.0 && comp.n >= 0.0 ==> y.co2 >= 0.0 && y.nh3 >= 0.0
  {
    var a, b, c, d := comp.c, comp.h, comp.o, comp.n;
    var denominator := FormulaMass(comp);
    if denominator > 0.0 then
      var y := Yields(
        (a * (12.0 + 2.0 * 16.0)) / denominator,
        ((4.0 * a + b - 3.0 * d - 2.0 * c) / 4.0) * ((2.0 * 16.0) / denominator),
        d * (14.0 + 3.0) / denominator,
        ((b - 3.0 * d) / 2.0) * (2.0 + 16.0) / denominator);
      YieldsBalance(a, b, c, d, denominator);
      y
    else
      Yields(0.0, 0.0, 0.0, 0.0)
  }

  lemma YieldsBalance(a: real, b: real, c: real, d: real, m: real)
    requires m == a * 12.0 + b * 1.0 + c * 16.0 + d * 14.0 && m > 0.0
    ensures (a * (12.0 + 2.0 * 16.0)) / m + d * (14.0 + 3.0) / m + ((b - 3.0 * d) / 2.0) * (2.0 + 16.0) / m
            - ((4.0 * a + b - 3.0 * d - 2.0 * c) / 4.0) * ((2.0 * 16.0) / m) == 1.0
  {
    var co2 := (a * 44.0) / m;
    var nh3 := d * 17.0 / m;
    var h2o := ((b - 3.0 * d) / 2.0) * 18.0 / m;
    var o2 := ((4.0 * a + b - 3.0 * d - 2.0 * c) / 4.0) * (32.0 / m);
    assert co2 * m == 44.0 * a;
    assert nh3 * m == 17.0 * d;
    assert h2o * m == 9.0 * (b - 3.0 * d);
    assert o2 * m == 8.0 * (4.0 * a + b - 3.0 * d - 2.0 * c);
    assert (co2 + nh3 + h2o - o2) * m == m;
  }

  /** A substrate whose composition row was missing or shorter than four
      entries produces and consumes nothing. */
  lemma ShortCompositionRowYieldsNothing(ccs: seq<seq<real>>, ns: nat, i: nat)
    requires |ccs| > 0 && i < ns && (i >= |ccs| || |ccs[i]| < 4)
    ensures StoichiometricYields(CompositionTable(ccs, ns)[i]) == Yields(0.0, 0.0, 0.0, 0.0)
  {
  }

  /** What one substrate does in one hour. */
  datatype SubstrateHour = SubstrateHour(
    fast: real,
    slow: real,
    bvs: real,
    solids: real,
    degraded: real,
    co2: real,
    o2: real,
    nh3: real,
    water: real)

  /** Decays the pools of one substrate for an hour and converts the degraded
      mass into gases and water. Each pool decays at its own 20 degC rate,
      corrected by the temperature bracket and inhibited by f1, f2 and oxygen;
      every product is its stoichiometric yield times the degraded mass. */
  function DegradeSubstrate(sub: Substrate, comp: Composition, p: Pools, bracket: real, f1: real, f2: real)
    : (h: SubstrateHour)
    requires 0.0 < f1 < 1.0 && 0.0 < f2 < 1.0
    ensures h.fast == Decay(p.fast, EffectiveRate(sub.fastRate20, bracket, f1, f2))
    ensures h.slow == Decay(p.slow, EffectiveRate(sub.slowRate20, bracket, f1, f2))
    ensures var y := StoichiometricYields(comp);
      && h.co2 == y.co2 * h.degraded && h.o2 == y.o2 * h.degraded
      && h.nh3 == y.nh3 * h.degraded && h.water == y.h2o * h.degraded
    ensures p.fast >= 0.0 ==> 0.0 <= h.fast <= p.fast
    ensures p.slow >= 0.0 ==> 0.0 <= h.slow <= p.slow
    ensures h.bvs == h.fast + h.slow
    ensures h.solids == p.ash + p.nbvs + h.bvs
    ensures h.degraded == p.bvs - h.bvs
    ensures FormulaMass(comp) > 0.0 ==> h.co2 + h.nh3 + h.water - h.o2 == h.degraded
    ensures FormulaMass(comp) <= 0.0 ==> h.co2 == 0.0 && h.o2 == 0.0 && h.nh3 == 0.0 && h.water == 0.0
  {
    var fk := EffectiveRate(sub.fastRate20, bracket, f1, f2);
    var sk := EffectiveRate(sub.slowRate20, bracket, f1, f2);
    var fastOut := Decay(p.fast, fk);
    var slowOut := Decay(p.slow, sk);
    var bvsOut := fastOut + slowOut;
    var degraded := p.bvs - bvsOut;
    var y := StoichiometricYields(comp);
    ProductsBalance(y, degraded);
    SubstrateHour(fastOut, slowOut, bvsOut, p.ash + p.nbvs + bvsOut, degraded,
                  y.co2 * degraded, y.o2 * degraded, y.nh3 * degraded, y.h2o * degraded)
  }

  lemma ProductsBalance(y: Yields, m: real)
    ensures y.co2 + y.nh3 + y.h2o - y.o2 == 1.0 ==>
      y.co2 * m + y.nh3 * m + y.h2o * m - y.o2 * m == m
  {
    assert y.co2 * m + y.nh3 * m + y.h2o * m - y.o2 * m == (y.co2 + y.nh3 + y.h2o - y.o2) * m;
  }
}

=== FILE: split.dfy ===
/** The initial split of every substrate into moisture, ash, non-biodegradable,
    fast- and slow-biodegradable masses, the initial totals, and the process
    volume (modelvic.py lines 107-110, 142-187, 517-518). */
module InitialSplit {
  import opened Common
  import opened Config

  /** Masses (kg/h) one substrate contributes at the start. */
  datatype Split = Split(
    solids: real,
    moisture: real,
    volatile: real,
    ash: real,
    biodegradable: real,
    nonBiodegradable: real,
    fast: real,
    slow: real)

  predicate PercentRange(x: real)
  {
    0.0 <= x <= 100.0
  }

  predicate ValidSubstrate(s: Substrate)
  {
    && s.flow >= 0.0
    && PercentRange(s.fs) && PercentRange(s.fvs)
    && PercentRange(s.fbvs) && PercentRange(s.ffbvs)
  }

  function Flows(subs: seq<Substrate>): (r: seq<real>)
    ensures |r| == |subs|
    ensures forall i :: 0 <= i < |subs| ==> r[i] == subs[i].flow
  {
    seq(|subs|, i requires 0 <= i < |subs| => subs[i].flow)
  }

  /** The flows rescaled to percentages of their total and back to the total:
      the source's normalisation, which leaves every flow as it was. */
  function NormalisedFlows(subs: seq<Substrate>): (fr: seq<real>)
    requires Sum(Flows(subs)) != 0.0
    ensures |fr| == |subs|
    ensures forall i :: 0 <= i < |fr| ==> fr[i] == subs[i].flow
  {
    var total := Sum(Flows(subs));
    seq(|subs|, i requires 0 <= i < |subs| => subs[i].flow / total * 100.0 * total / 100.0)
  }

  /** Splits a flow using the substrate's percentages and their complements to 100. */
  function SplitSubstrate(flow: real, s: Substrate): (r: Split)
    ensures r.solids + r.moisture == flow
    ensures r.ash + r.volatile == r.solids
    ensures r.nonBiodegradable + r.biodegradable == r.volatile
    ensures r.fast + r.slow == r.biodegradable
    ensures r.solids * 100.0 == flow * s.fs
    ensures ValidSubstrate(s) && flow >= 0.0 ==>
      && r.moisture >= 0.0 && r.ash >= 0.0 && r.nonBiodegradable >= 0.0
      && r.fast >= 0.0 && r.slow >= 0.0 && 0.0 <= r.volatile <= r.solids
  {
    var solids := flow * s.fs / 100.0;
    var moisture := flow * (100.0 - s.fs) / 100.0;
    var volatile := solids * s.fvs / 100.0;
    var ash := solids * (100.0 - s.fvs) / 100.0;
    var bvs := volatile * s.fbvs / 100.0;
    var nbvs := volatile * (100.0 - s.fbvs) / 100.0;
    var fast := bvs * s.ffbvs / 100.0;
    var slow := bvs * (100.0 - s.ffbvs) / 100.0;
    NonNegativeShare(flow, s.fs);
    NonNegativeShare(solids, s.fvs);
    NonNegativeShare(volatile, s.fbvs);
    NonNegativeShare(bvs, s.ffbvs);
    Split(solids, moisture, volatile, ash, bvs, nbvs, fast, slow)
  }

  lemma NonNegativeShare(m: real, p: real)
    ensures m >= 0.0 && 0.0 <= p <= 100.0 ==>
      0.0 <= m * p / 100.0 <= m && 0.0 <= m * (100.0 - p) / 100.0
  {
    if m >= 0.0 && 0.0 <= p <= 100.0 {
      assert m * p <= m * 100.0;
    }
  }

  function Splits(subs: seq<Substrate>): (r: seq<Split>)
    requires Sum(Flows(subs)) != 0.0
    ensures |r| == |subs|
  {
    var fr := NormalisedFlows(subs);
    seq(|subs|, i requires 0 <= i < |subs| => SplitSubstrate(fr[i], subs[i]))
  }

  function MoistureOf(sp: seq<Split>): (r: seq<real>)
    ensures |r| == |sp| && forall i :: 0 <= i < |sp| ==> r[i] == sp[i].moisture
  {
    seq(|sp|, i requires 0 <= i < |sp| => sp[i].moisture)
  }

  function VolatileOf(sp: seq<Split>): (r: seq<real>)
    ensures |r| == |sp| && forall i :: 0 <= i < |sp| ==> r[i] == sp[i].volatile
  {
    seq(|sp|, i requires 0 <= i < |sp| => sp[i].volatile)
  }

  /** The configuration the engine can run on: at least one substrate,
      non-negative flows with a positive total, percentages in [0, 100], some
      solids to start from, and a non-empty temperature list when one is given. */
  predicate ValidConfig(cfg: SimConfig)
  {
    && |cfg.substrates| >= 1
    && (forall i :: 0 <= i < |cfg.substrates| ==> ValidSubstrate(cfg.substrates[i]))
    && Sum(Flows(cfg.substrates)) > 0.0
    && PoolSolids(InitialPools(cfg.substrates)) > 0.0
    && (cfg.temperatures.Some? ==> |cfg.temperatures.value| >= 1)
  }

  /** The starting pools of each substrate. Per substrate the pools and the
      moisture add up to the flow and the biodegradable total is its fast and
      slow parts; valid percentages make every pool well formed. */
  function InitialPools(subs: seq<Substrate>): (ps: seq<Pools>)
    requires Sum(Flows(subs)) != 0.0
    ensures |ps| == |subs|
    ensures forall i :: 0 <= i < |subs| ==> PoolSolidsOf(ps)[i] + MoistureOf(Splits(subs))[i] == subs[i].flow
    ensures forall i :: 0 <= i < |subs| ==> PoolSolidsOf(ps)[i] * 100.0 == subs[i].flow * subs[i].fs
    ensures forall i :: 0 <= i < |subs| ==> ps[i].bvs == ps[i].fast + ps[i].slow
    ensures (forall i :: 0 <= i < |subs| ==> ValidSubstrate(subs[i])) ==> AllWellFormed(ps)
  {
    var sp := Splits(subs);
    var ps := seq(|sp|, i requires 0 <= i < |sp| =>
      Pools(sp[i].ash, sp[i].nonBiodegradable, sp[i].biodegradable, sp[i].fast, sp[i].slow));
    forall i | 0 <= i < |subs|
      ensures PoolSolidsOf(ps)[i] + MoistureOf(sp)[i] == subs[i].flow
      ensures PoolSolidsOf(ps)[i] * 100.0 == subs[i].flow * subs[i].fs
      ensures ps[i].bvs == ps[i].fast + ps[i].slow
      ensures ValidSubstrate(subs[i]) ==> PoolWellFormed(ps[i])
    {
      SplitAt(subs, i);
      assert PoolSolidsOf(ps)[i] == sp[i].solids;
    }
    ps
  }

  /** Substrate i is split at its own flow. */
  lemma SplitAt(subs: seq<Substrate>, i: nat)
    requires Sum(Flows(subs)) != 0.0 && i < |subs|
    ensures Splits(subs)[i] == SplitSubstrate(subs[i].flow, subs[i])
  {
  }

  /** Splitting conserves mass: the initial solids and moisture add up to the
      total flow. */
  lemma SplitConservesFlow(subs: seq<Substrate>)
    requires Sum(Flows(subs)) != 0.0
    ensures PoolSolids(InitialPools(subs)) + Sum(MoistureOf(Splits(subs))) == Sum(Flows(subs))
  {
    SumAdd(PoolSolidsOf(InitialPools(subs)), MoistureOf(Splits(subs)), Flows(subs));
  }

  /** Process volume (m^3): initial solids plus moisture over a bulk density of
      1000 kg/m^3. */
  function ProcessVolume(subs: seq<Substrate>): real
    requires Sum(Flows(subs)) != 0.0
  {
    (PoolSolids(InitialPools(subs)) + Sum(MoistureOf(Splits(subs)))) / 1000.0
  }

  /** The process volume is the total flow over 1000. */
  lemma ProcessVolumeIsTotalFlow(subs: seq<Substrate>)
    requires Sum(Flows(subs)) != 0.0
    ensures ProcessVolume(subs) == Sum(Flows(subs)) / 1000.0
  {
    SplitConservesFlow(subs);
  }

  /** Every initial mass is non-negative and the volatile solids do not exceed
      the solids. */
  lemma InitialTotalsInRange(subs: seq<Substrate>)
    requires Sum(Flows(subs)) != 0.0
    requires forall i :: 0 <= i < |subs| ==> ValidSubstrate(subs[i])
    ensures Sum(MoistureOf(Splits(subs))) >= 0.0
    ensures 0.0 <= Sum(VolatileOf(Splits(subs))) <= PoolSolids(InitialPools(subs))
  {
    var sp := Splits(subs);
    var ps := InitialPools(subs);
    forall i | 0 <= i < |subs|
      ensures MoistureOf(sp)[i] >= 0.0
      ensures 0.0 <= VolatileOf(sp)[i] <= PoolSolidsOf(ps)[i]
    {
      assert sp[i] == SplitSubstrate(NormalisedFlows(subs)[i], subs[i]);
    }
    SumNonNegative(MoistureOf(sp));
    SumNonNegative(VolatileOf(sp));
    SumLe(VolatileOf(sp), PoolSolidsOf(ps));
  }
}
